=== FILE: README.md ===
# SSH user enumeration scanners, modelled in Dafny

This project models the decision logic of two Metasploit auxiliary scanners
that find valid user names on an SSH server without credentials:

- `cerberus_sftp_enumusers` (response shape). Cerberus FTP Server lists no
  authentication methods after a failed login for an unknown user. The module
  first logs in with a made-up user (`check_vulnerable`). If the server lists
  no methods it is vulnerable, and the users of the user file are probed in
  order until an exception escapes. A probe whose answer lists methods, or
  whose connection drops, finds the user.
- `ssh_enumusers` (timing, CVE-2006-5229). Some OpenSSH servers take longer
  to reject a 64 000-character password for a user that exists. A login
  attempt that takes strictly longer than `THRESHOLD` seconds finds the user.
  The module first probes a made-up user (`check_false_positive`). A server
  that reports that user as found is abandoned.

Both modules share `attempt_user` and `show_result`. `attempt_user` probes a
user up to `RETRY_NUM + 1` times, again only after `:connection_error`, and
sleeps `2 ** attempt_num` seconds before each retry. `show_result` prints a
message and reports a finding for `:success` only.

Files and modules:

- `outcomes.dfy` (`Outcomes`): the outcome symbols; the Ruby exceptions a
  probe can raise, with `is_a?`; and the first-match semantics of a chain of
  `rescue` clauses.
- `events.dfy` (`Events`): the append-only log that replaces console output,
  sleeps, connections and the reporting database. It also defines three
  projections: the users probed, the sleeps, and the users reported.
- `text.dfy` (`Text`): the ASCII parts of `String#split`, `downcase!`,
  `Array#uniq!` and `Array#join` that the user-list loaders use.
- `retry.dfy` (`RetryControl`): `attempt_user`, as a reference function
  `Retry` and as the loop `AttemptUser`.
- `scan.dfy` (`Scan`): `show_result`, and the loop over the user list that
  both `run_host`s end with.
- `cerberus_enum.dfy` (`CerberusEnum`) and `ssh_enum.dfy` (`SshEnum`): each
  module's `check_user`, its gate, its `user_list` and its `run_host`.

The network is an oracle. `server(k)` is what the k-th connection of one
`run_host` meets. In `CerberusEnum` that is a `Reply`: opening the transport
raises, the authentication raises, or the server answers with its allowed
methods and version. In `SshEnum` it is an `Attempt`: `Net::SSH.start`
returns or raises after some number of milliseconds. The Cerberus gate uses
connection 0 and the user probes start at 1. The timing gate uses as many
connections as its retries need, and the user probes follow directly.

Some of the code's behaviour is easy to misread. The model follows the code:

- In the Cerberus `check_user`, a non-empty `'|'`-joined method list means
  `:success`, and an empty one means `:fail`. An empty list marks the server
  itself `:vulnerable` in `check_vulnerable`.
- The timing comparison is strict (`finish - start > threshold`). An attempt
  of exactly the threshold is `:fail`, although the help text of `THRESHOLD`
  (ssh_enumusers.rb:40-41) calls it the number of seconds "needed" before a
  user counts as found, which reads as "at least".
- The sleeps before retries last 2, 4, 8, ... seconds, not 1, 2, 4, ...
- The Cerberus `check_user` opens its transport outside the `begin`/`rescue`
  block. An exception raised there escapes `run_host` and is not turned into
  `:connection_error`. The model keeps this: an escaping exception is an
  `Abrupt` completion. It ends the scan, and later users are never probed.
- `RETRY_NUM` is an integer option and may be negative. `attempt_user` then
  makes no attempt and returns nil. `show_result` prints nothing for nil, and
  the false-positive check reads nil as "not found".

## Model

| member | source | states |
|---|---|---|
| Outcomes.FirstCatch | modules/auxiliary/scanner/ssh/ssh_enumusers.rb:97-108 | Ruby tries `rescue` clauses in order: the clause picked catches the exception and no earlier clause does, or no clause catches it |
| Outcomes.Rescue | modules/auxiliary/scanner/ssh/ssh_enumusers.rb:97-108 | the handler that runs for a raised exception is the first catching clause's; there is none exactly when no clause catches it |
| Text.Split | modules/auxiliary/scanner/ssh/ssh_enumusers.rb:137 | the awk-mode `split` of the user file; its properties are those of Text.SplitTokens, Text.SplitKeepsEveryOtherChar, Text.SplitRunsAt, Text.SplitRuns and Text.SplitJoin |
| Text.SplitTokens | modules/auxiliary/scanner/ssh/ssh_enumusers.rb:137 | every field of `split` is non-empty and free of white space |
| Text.SplitKeepsEveryOtherChar | modules/auxiliary/scanner/ssh/ssh_enumusers.rb:137 | `split` drops exactly the white space: its fields, concatenated, are the non-space characters of the file in order |
| Text.SplitJoin | modules/auxiliary/scanner/ssh/ssh_enumusers.rb:137 | names written one per separator split back into the same list |
| Text.SplitRunsAt | modules/auxiliary/scanner/ssh/ssh_enumusers.rb:137 | the fields of `split` are maximal runs of non-space characters of the text, at strictly increasing positions, and every run of the text starts at one of those positions, so no run is left out |
| Text.SplitRuns | modules/auxiliary/scanner/ssh/ssh_enumusers.rb:137 | the fields of `split` are all the maximal runs of non-space characters of the text, in order, with the positions left implicit |
| Text.Downcase | modules/auxiliary/scanner/ssh/cerberus_sftp_enumusers.rb:159 | `downcase!` keeps the length, leaves no upper-case letter, moves each upper-case letter to its lower-case form and keeps every other character |
| Text.DowncaseAll | modules/auxiliary/scanner/ssh/cerberus_sftp_enumusers.rb:159 | `downcase!` on every name of the list keeps the number of names and downcases each in place; Text.DowncaseAllMembers adds that the list holds exactly the downcased names |
| Text.DowncaseIdempotent | modules/auxiliary/scanner/ssh/cerberus_sftp_enumusers.rb:159 | downcasing twice is downcasing once |
| Text.DowncaseToken | modules/auxiliary/scanner/ssh/cerberus_sftp_enumusers.rb:158-159 | a downcased field is still a field: non-empty, without white space |
| Text.DowncaseLower | modules/auxiliary/scanner/ssh/cerberus_sftp_enumusers.rb:159 | a name without upper-case letters is unchanged by `downcase!` |
| Text.Uniq | modules/auxiliary/scanner/ssh/cerberus_sftp_enumusers.rb:160 | `uniq!` leaves no duplicate, keeps exactly the names of its input, and orders them by first occurrence |
| Text.UniqOfDistinct | modules/auxiliary/scanner/ssh/cerberus_sftp_enumusers.rb:160 | `uniq!` changes a list without duplicates in no way |
| Text.Join | modules/auxiliary/scanner/ssh/cerberus_sftp_enumusers.rb:88 | the allowed methods joined with a vertical bar as separator; its property is that of Text.JoinEmpty, which is all the module reads of the joined string |
| Text.JoinEmpty | modules/auxiliary/scanner/ssh/cerberus_sftp_enumusers.rb:88 | the method string joined with a vertical bar is empty exactly when the list is `[]` or `[""]` |
| RetryControl.BackoffSchedule | modules/auxiliary/scanner/ssh/cerberus_sftp_enumusers.rb:173-174 | n attempts sleep n - 1 times, and the sleep before attempt k (from 0) lasts 2^k seconds: 2, 4, 8, ... |
| RetryControl.BackoffTotal | modules/auxiliary/scanner/ssh/ssh_enumusers.rb:148-149 | n attempts sleep 2^n - 2 seconds in all |
| RetryControl.AttemptsFrom | modules/auxiliary/scanner/ssh/ssh_enumusers.rb:147 | the attempts left at index k are none once k passes `retry_num`, else at least one and at most `retry_num + 1 - k` |
| RetryControl.AttemptsFromStops | modules/auxiliary/scanner/ssh/ssh_enumusers.rb:147-156 | the loop goes on exactly through `:connection_error`: every attempt but the last ended in one, and a stop before the count runs out follows another result |
| RetryControl.RetryLogShape | modules/auxiliary/scanner/ssh/ssh_enumusers.rb:148-153 | n attempts probe the user n times, sleep 2, 4, ... seconds in between, start with a probe and report nothing; the log is laid out as probe, then sleep and retry message before each later probe |
| RetryControl.RetryLogLayout | modules/auxiliary/scanner/ssh/ssh_enumusers.rb:148-153 | the log of n attempts has 3n - 2 events: probe k at position 3k, the sleep of 2^(k+1) seconds at 3k + 1 and the retry message at 3k + 2 |
| RetryControl.RetryPolicy | modules/auxiliary/scanner/ssh/cerberus_sftp_enumusers.rb:168-183 | `attempt_user` probes at most `retry_num + 1` times, at least once when `retry_num >= 0`, retries only after `:connection_error`, stops at the first other result and returns the last result, or nil without attempts |
| RetryControl.Retry | modules/auxiliary/scanner/ssh/cerberus_sftp_enumusers.rb:168-183 | the reference definition of `attempt_user`; its properties are those of RetryControl.RetryPolicy, RetryControl.RetryLogShape and RetryControl.ConnectionErrorOnlyWhenExhausted, and RetryControl.AttemptUser runs it as the source's loop |
| RetryControl.ConnectionErrorOnlyWhenExhausted | modules/auxiliary/scanner/ssh/cerberus_sftp_enumusers.rb:172-182 | a final `:connection_error` means `retry_num + 1` attempts were made and every one of them failed to connect |
| RetryControl.AttemptUser | modules/auxiliary/scanner/ssh/ssh_enumusers.rb:143-158 | the loop makes exactly the attempts, returns exactly the result, and writes exactly the log of the retry policy; an exception ends it at once |
| RetryControl.TwoConnectionErrorsThenAnswer | modules/auxiliary/scanner/ssh/ssh_enumusers.rb:147-153 | two connection errors then `:fail` with `retry_num` 3 give `:fail` after three attempts and sleeps of 2 and 4 seconds |
| Scan.ShowResult | modules/auxiliary/scanner/ssh/ssh_enumusers.rb:160-170 | the reference definition of `show_result`; its properties are those of Scan.ShowResultFacts |
| Scan.ShowResultFacts | modules/auxiliary/scanner/ssh/ssh_enumusers.rb:160-170 | `show_result` reports the user, as an active SSH login on the target, exactly for `:success`; it logs only messages and that report, opens no connection and never sleeps; every symbol starts with its message (good for `:success`, error for `:connection_error`, the module's level for `:fail`) and nil logs nothing |
| Scan.SuccessfulMembers | modules/auxiliary/scanner/ssh/cerberus_sftp_enumusers.rb:185-190 | a user is among the findings exactly when one of the user's entries ended in `:success` |
| Scan.ScanUsers | modules/auxiliary/scanner/ssh/cerberus_sftp_enumusers.rb:203-205 | the reference definition of the `each` loop over the user list; its properties are those of Scan.ScanFacts, Scan.ScanHaltedStaysHalted and Scan.ScanPhaseFacts, and Scan.RunScan runs it as the source's loop |
| Scan.ScanFacts | modules/auxiliary/scanner/ssh/cerberus_sftp_enumusers.rb:203-205 | the scan takes users in list order, each once, until an exception escapes; entry i holds the attempts and result of `attempt_user` for user i, started at the probe after the earlier users' probes; it probes user i as often as its attempts, in order, and reports the users found, in order |
| Scan.EachRetriedAt | modules/auxiliary/scanner/ssh/cerberus_sftp_enumusers.rb:203-205 | entry i of the scan is `attempt_user` for user i, from the probe after all earlier users' probes |
| Scan.EachRetriedBound | modules/auxiliary/scanner/ssh/cerberus_sftp_enumusers.rb:172 | no user of the scan is probed more than `retry_num + 1` times |
| Scan.ScanHaltedStaysHalted | modules/auxiliary/scanner/ssh/cerberus_sftp_enumusers.rb:203-205 | after an exception has escaped, later users change nothing |
| Scan.RunScan | modules/auxiliary/scanner/ssh/ssh_enumusers.rb:179 | the loop over the user list computes the scan, stopping at an escaping exception |
| Scan.RunScanPhase | modules/auxiliary/scanner/ssh/ssh_enumusers.rb:179 | an unreadable user list raises before any probe; otherwise the users are probed in list order after the earlier probes, exactly the users found are reported, and a run no exception ends scanned every user |
| Scan.ScanPhase | modules/auxiliary/scanner/ssh/ssh_enumusers.rb:178-179 | the reference definition of the "Starting scan" message followed by the loop over `user_list`; its properties are those of Scan.ScanPhaseFacts and Scan.ScanPhaseFindings, and Scan.RunScanPhase runs it with a loop |
| Scan.ScanPhaseFacts | modules/auxiliary/scanner/ssh/cerberus_sftp_enumusers.rb:203-205 | the scan phase adds the users' probes in order and reports exactly the users found; entry i is user i's `attempt_user`, of at most `retry_num + 1` attempts; it ends without an exception only after every user, all of whose attempts completed |
| Scan.ScanPhaseFindings | modules/auxiliary/scanner/ssh/ssh_enumusers.rb:160-179 | a user is reported by the scan phase exactly when one of the user's entries ended in `:success` |
| CerberusEnum.CheckVulnerable | modules/auxiliary/scanner/ssh/cerberus_sftp_enumusers.rb:69-103 | the server is `:vulnerable` exactly when its answer lists no methods, and `:safe` when it lists some; a connection error or address in use while opening the transport is `:connection_error`; an authentication exception escapes; an answer first prints the server version and also records it with `report_service`, probing and reporting no user |
| CerberusEnum.CheckUser | modules/auxiliary/scanner/ssh/cerberus_sftp_enumusers.rb:105-139 | an answer is `:success` exactly when it lists methods, else `:fail`; disconnect and EOF are `:success`; connection errors and timeouts during authentication are `:connection_error`; exceptions while opening the transport and unrescued ones escape |
| CerberusEnum.CheckUserFollowsRescue | modules/auxiliary/scanner/ssh/cerberus_sftp_enumusers.rb:132-138 | the classification of a raised authentication is what the ordered `rescue` clauses give |
| CerberusEnum.GateMirrorsUserCheck | modules/auxiliary/scanner/ssh/cerberus_sftp_enumusers.rb:98-130 | the gate calls a server vulnerable for exactly the answers that make a user `:fail` |
| CerberusEnum.UserList | modules/auxiliary/scanner/ssh/cerberus_sftp_enumusers.rb:155-166 | the list is duplicate-free, lower-case, made of fields, holds exactly the downcased fields of the file, and lists them in the order of their first occurrence among the downcased fields; an unreadable file raises |
| CerberusEnum.UserListRoundTrip | modules/auxiliary/scanner/ssh/cerberus_sftp_enumusers.rb:155-166 | distinct lower-case names written one per line load back as the same list |
| CerberusEnum.RunHost | modules/auxiliary/scanner/ssh/cerberus_sftp_enumusers.rb:197-211 | the reference definition of `run_host`; its properties are those of CerberusEnum.RunHostKeepsPromise, CerberusEnum.NoScanUnlessVulnerable, CerberusEnum.ScanWhenVulnerable, CerberusEnum.UnreadableFileEndsRun and CerberusEnum.ReportedIffFound |
| CerberusEnum.ScanHost | modules/auxiliary/scanner/ssh/cerberus_sftp_enumusers.rb:197-211 | the gate followed by the scan loop computes `run_host`, and the run keeps its promise: a server not shown vulnerable gets only the made-up user's probe and no finding; on a vulnerable one an unreadable file raises before any user probe, and otherwise the users are probed in list order after the made-up user and exactly those found are reported |
| CerberusEnum.RunHostKeepsPromise | modules/auxiliary/scanner/ssh/cerberus_sftp_enumusers.rb:197-211 | every run of `run_host` keeps that promise |
| CerberusEnum.RunHostFacts | modules/auxiliary/scanner/ssh/cerberus_sftp_enumusers.rb:197-211 | the probes, findings and exception of a run, by the gate's verdict |
| CerberusEnum.RunHostFindings | modules/auxiliary/scanner/ssh/cerberus_sftp_enumusers.rb:185-211 | a user is reported exactly when the server is vulnerable and the user's attempts ended in `:success` |
| CerberusEnum.GateLog | modules/auxiliary/scanner/ssh/cerberus_sftp_enumusers.rb:198-202 | before the scan, the run probes the made-up user once and reports nothing |
| CerberusEnum.NoScanUnlessVulnerable | modules/auxiliary/scanner/ssh/cerberus_sftp_enumusers.rb:197-211 | a server not found vulnerable gets no user probe and no finding; the run raises exactly when the gate's authentication raised or opening the transport raised something other than a connection error |
| CerberusEnum.VulnerableRun | modules/auxiliary/scanner/ssh/cerberus_sftp_enumusers.rb:199-205 | on a vulnerable server the run is the scan phase from probe 1, after messages that probe only the made-up user |
| CerberusEnum.UnreadableFileEndsRun | modules/auxiliary/scanner/ssh/cerberus_sftp_enumusers.rb:157-162 | an unreadable user file ends the run before any user probe, with no finding |
| CerberusEnum.ScanWhenVulnerable | modules/auxiliary/scanner/ssh/cerberus_sftp_enumusers.rb:199-205 | on a vulnerable server the users are probed in order, each with its retries, after the one gate probe; exactly the users found are reported; a run without an exception scanned every user |
| CerberusEnum.ReportedIffFound | modules/auxiliary/scanner/ssh/cerberus_sftp_enumusers.rb:185-211 | a user is reported exactly when the server is vulnerable and the user's attempts ended in `:success` |
| SshEnum.Timed | modules/auxiliary/scanner/ssh/ssh_enumusers.rb:110-116 | the timing verdict is `:success` exactly when the attempt took strictly longer than the threshold |
| SshEnum.CheckUser | modules/auxiliary/scanner/ssh/ssh_enumusers.rb:79-117 | connection errors and address in use are `:connection_error`; disconnect, EOF and timeout are `:success`; a completed login and any other SSH error leave the verdict to the strict timing comparison; anything else escapes |
| SshEnum.CheckUserFollowsRescue | modules/auxiliary/scanner/ssh/ssh_enumusers.rb:97-110 | the classification is what the ordered `rescue` clauses give, a swallowed SSH error falling through to the timing |
| SshEnum.DisconnectBeforeSshException | modules/auxiliary/scanner/ssh/ssh_enumusers.rb:103-107 | a disconnect is also an SSH error, but it is `:success` however fast the server was |
| SshEnum.ThresholdStrict | modules/auxiliary/scanner/ssh/ssh_enumusers.rb:112 | an attempt of exactly the threshold is `:fail`, one millisecond more is `:success` |
| SshEnum.TimingMonotone | modules/auxiliary/scanner/ssh/ssh_enumusers.rb:112-116 | a slower completed attempt is found whenever a faster one is |
| SshEnum.CheckFalsePositive | modules/auxiliary/scanner/ssh/ssh_enumusers.rb:73-77 | true exactly when the made-up user's last attempt ended in `:success`; it raises when that attempt raised; no attempt means false |
| SshEnum.UserList | modules/auxiliary/scanner/ssh/ssh_enumusers.rb:135-141 | the list is made of fields that spell the file's non-space characters in order, with case and duplicates kept, and the fields are the file's maximal runs of non-space characters at increasing positions; an unreadable file raises |
| SshEnum.UserListRoundTrip | modules/auxiliary/scanner/ssh/ssh_enumusers.rb:135-141 | any names written one per line load back as the same list, duplicates and case included |
| SshEnum.RunHost | modules/auxiliary/scanner/ssh/ssh_enumusers.rb:172-181 | the reference definition of `run_host`; its properties are those of SshEnum.RunHostKeepsPromise, SshEnum.NoScanUnlessPassed, SshEnum.ScanWhenNoFalsePositive, SshEnum.UnreadableFileEndsRun and SshEnum.ReportedIffFound |
| SshEnum.ScanHost | modules/auxiliary/scanner/ssh/ssh_enumusers.rb:172-181 | the retried decoy probe followed by the scan loop computes `run_host`, and the run keeps its promise: unless the check is passed only the decoy is probed, nothing is reported, and the run raises exactly when the check raised; after a passed check an unreadable file raises before any user probe, and otherwise the users are probed in list order right after the decoy and exactly those found are reported |
| SshEnum.RunHostKeepsPromise | modules/auxiliary/scanner/ssh/ssh_enumusers.rb:172-181 | every run of `run_host` keeps that promise |
| SshEnum.RunHostFacts | modules/auxiliary/scanner/ssh/ssh_enumusers.rb:172-181 | the probes, findings and exception of a run, by the outcome of the false-positive check |
| SshEnum.RunHostFindings | modules/auxiliary/scanner/ssh/ssh_enumusers.rb:160-181 | a user is reported exactly when the check was passed and one of the user's entries ended in `:success` |
| SshEnum.GateLog | modules/auxiliary/scanner/ssh/ssh_enumusers.rb:172-175 | before the scan, the run probes only the made-up user, once per attempt, and reports nothing, not even that user |
| SshEnum.FalsePositiveAborts | modules/auxiliary/scanner/ssh/ssh_enumusers.rb:174-176 | a false positive ends the run without an exception, with no user probe and no finding |
| SshEnum.NoScanUnlessPassed | modules/auxiliary/scanner/ssh/ssh_enumusers.rb:172-181 | unless the check is passed, no user is probed and nothing is reported; the run raises exactly when the check raised |
| SshEnum.PassedRun | modules/auxiliary/scanner/ssh/ssh_enumusers.rb:177-179 | after a passed check the run is the scan phase from the probe after the decoy's last |
| SshEnum.ScanWhenNoFalsePositive | modules/auxiliary/scanner/ssh/ssh_enumusers.rb:177-179 | after a passed check the entries of the file are probed in order, each with its retries, right after the decoy's probes, up to the entry whose attempts raised an escaping exception (with `RETRY_NUM < 0` no entry is probed at all); a run no exception ends scanned every entry; exactly the users found are reported |
| SshEnum.UnreadableFileEndsRun | modules/auxiliary/scanner/ssh/ssh_enumusers.rb:135-141 | an unreadable user file ends a passed run before any user probe, with no finding |
| SshEnum.ReportedIffFound | modules/auxiliary/scanner/ssh/ssh_enumusers.rb:160-181 | a user is reported exactly when the check was passed and one of the user's entries ended in `:success` |

## Left out

- `Net::SSH` transport and authentication sessions and `Net::SSH.start`: a
  foreign library. Each connection is an oracle value (`Reply`, `Attempt`).
- `::Timeout.timeout` and the clock. The timeout is the `TimeoutExpired`
  exception. The elapsed time is a whole number of milliseconds, so
  differences below a millisecond in the floating-point `Time` subtraction
  are not modelled.
- `Rex.sleep`: a `Sleep(seconds)` event in the log.
- `Rex::Text.rand_text_alphanumeric`: the made-up user is a parameter
  (`decoy`). The random passwords do not influence the logic and are not
  modelled.
- File I/O in `user_list`: the file is its content, `Option<string>`, with
  None for an unreadable file.
- `downcase!` beyond ASCII: Unicode case folding is not modelled.
- `initialize`, option registration and datastore reads: the host, port and
  `RETRY_NUM` are an immutable `Scope`, and `THRESHOLD` is a parameter.
  `SSH_TIMEOUT` bounds the `::Timeout.timeout` block around each login
  (cerberus_sftp_enumusers.rb:123, ssh_enumusers.rb:98); only its effect is
  modelled, as the `TimeoutExpired` exception, and its value is not.
  `SSH_DEBUG` and `Proxies` only configure the SSH library.
- `print_*`, `vprint_*`, `report_service` and `report_auth_info`: events in
  the log. The message text, the `peer` prefix and its typo ("on could not
  connect") are not modelled.
- The scanner mixin's parallelism across hosts: one `run_host` is modelled.

=== FILE: cerberus_enum.dfy ===
/** `auxiliary/scanner/ssh/cerberus_sftp_enumusers`: the Cerberus FTP Server
    SFTP user enumeration. A vulnerable server lists no authentication
    methods to a login attempt for a user that does not exist, and some for
    one that does. The module first checks the server with a made-up user
    and scans only a server that shows the flaw. */
module CerberusEnum {
  import opened Outcomes
  import opened Events
  import opened Text
  import opened Scan

  /** What one SSH connection to the target yields, as far as the module can
      see: opening the transport raises, the authentication attempt raises,
      or the server answers with its allowed methods and its version. */
  datatype Reply =
    | TransportRaised(exc: Exc)
    | AuthRaised(exc: Exc)
    | Answered(methods: seq<string>, version: string)

  /** The symbols `check_vulnerable` returns:
      `:vulnerable`, `:safe` and `:connection_error`. */
  datatype Verdict = Vulnerable | Safe | Unreachable

  /** The `rescue` clause around opening the transport in `check_vulnerable`. */
  const TransportRescue: seq<Clause> :=
    [Clause([RexConnectionError, RexAddressInUse], Return(ConnectionError))]

  /** The `rescue` clauses around the authentication attempt in `check_user`. */
  const AuthRescue: seq<Clause> :=
    [ Clause([RexConnectionError, RexAddressInUse], Return(ConnectionError)),
      Clause([SshDisconnect, EOFError], Return(Success)),
      Clause([TimeoutError], Return(ConnectionError)) ]

  datatype Checked = Checked(verdict: Completion<Verdict>, log: seq<Event>)

  /** `check_vulnerable`: one login attempt with a made-up user. Only the
      opening of the transport is guarded; an exception of the
      authentication attempt escapes. An answer prints and records the
      server version and is `:vulnerable` when the allowed methods join to
      the empty string. */
  function CheckVulnerable(scope: Scope, reply: Reply): (c: Checked)
    ensures c.verdict == Normal(Vulnerable) <==> reply.Answered? && (reply.methods == [] || reply.methods == [""])
    ensures c.verdict == Normal(Safe) <==> reply.Answered? && reply.methods != [] && reply.methods != [""]
    ensures c.verdict == Normal(Unreachable) <==> reply.TransportRaised? && ConnectionLevel(reply.exc)
    ensures c.verdict.Abrupt? ==> !reply.Answered? && c.verdict.exc == reply.exc
    ensures c.log != [] <==> reply.Answered?
    ensures reply.Answered? ==> c.log[0] == Print(Status, ServerVersion(reply.version))
    ensures reply.Answered? ==> Reports(c.log) == [] && Probes(c.log) == []
                                && ReportService(Service(scope.host, scope.port, "ssh", "tcp", reply.version)) in c.log
  {
    match reply
    case TransportRaised(e) =>
      CatchesTwo(RexConnectionError, RexAddressInUse, Return(ConnectionError), e);
      if Rescue(e, TransportRescue).Some? then Checked(Normal(Unreachable), [])
      else Checked(Abrupt(e), [])
    case AuthRaised(e) => Checked(Abrupt(e), [])
    case Answered(methods, version) =>
      JoinEmpty(methods, "|");
      var log := [Print(Status, ServerVersion(version)), ReportService(Service(scope.host, scope.port, "ssh", "tcp", version))];
      assert log == [Print(Status, ServerVersion(version))] + [ReportService(Service(scope.host, scope.port, "ssh", "tcp", version))];
      ReportsAppend([Print(Status, ServerVersion(version))], [ReportService(Service(scope.host, scope.port, "ssh", "tcp", version))]);
      ProbesAppend([Print(Status, ServerVersion(version))], [ReportService(Service(scope.host, scope.port, "ssh", "tcp", version))]);
      Checked(Normal(if Join(methods, "|") == "" then Vulnerable else Safe), log)
  }

  /** `check_user`: one login attempt for `user`. Opening the transport is
      not guarded, so its exceptions escape; during the attempt a dropped
      connection means the user exists, and an answer listing methods means
      the same. */
  function CheckUser(reply: Reply): (c: Completion<Outcome>)
    ensures reply.Answered? ==> (c == Normal(Success) <==> reply.methods != [] && reply.methods != [""])
    ensures reply.Answered? ==> c.Normal? && c.value != ConnectionError
    ensures c == Normal(ConnectionError) <==>
              reply.AuthRaised? && (ConnectionLevel(reply.exc) || reply.exc == TimeoutExpired)
    ensures reply.AuthRaised? && (reply.exc == Disconnect || reply.exc == EndOfFile) ==> c == Normal(Success)
    ensures c.Abrupt? <==> (reply.TransportRaised? ||
                            (reply.AuthRaised? && reply.exc in {AuthenticationFailed, OtherSshError, UnreadableUserFile, OtherError}))
    ensures c.Abrupt? ==> c.exc == reply.exc
  {
    match reply
    case TransportRaised(e) => Abrupt(e)
    case AuthRaised(e) =>
      if ConnectionLevel(e) then Normal(ConnectionError)
      else if IsA(e, SshDisconnect) || IsA(e, EOFError) then Normal(Success)
      else if IsA(e, TimeoutError) then Normal(ConnectionError)
      else Abrupt(e)
    case Answered(methods, _) =>
      JoinEmpty(methods, "|");
      Normal(if Join(methods, "|") != "" then Success else Fail)
  }

  /** The classification of a raised authentication attempt is the one
      Ruby's ordered `rescue` clauses give. */
  lemma CheckUserFollowsRescue(e: Exc)
    ensures var h := Rescue(e, AuthRescue);
      && (h.Some? ==> h.value.Return? && CheckUser(AuthRaised(e)) == Normal(h.value.outcome))
      && (h.None? ==> CheckUser(AuthRaised(e)) == Abrupt(e))
  {
    CatchesTwo(RexConnectionError, RexAddressInUse, Return(ConnectionError), e);
    CatchesTwo(SshDisconnect, EOFError, Return(Success), e);
    CatchesOne(TimeoutError, Return(ConnectionError), e);
  }

  /** Gate and scan read an answer in opposite ways: the server is flagged
      vulnerable by exactly the answers that make a user "not found". */
  lemma GateMirrorsUserCheck(scope: Scope, methods: seq<string>, version: string)
    ensures (CheckVulnerable(scope, Answered(methods, version)).verdict == Normal(Vulnerable))
              == (CheckUser(Answered(methods, version)) == Normal(Fail))
  {
  }

  /** The classified probe stream of a run: probe k meets `server(k)`. */
  function Checks(server: nat -> Reply): nat -> Completion<Outcome>
  {
    (k: nat) => CheckUser(server(k))
  }

  /** `user_list`: the user file split on white space, downcased, duplicates
      removed keeping first occurrences, so the names come in the order in
      which they first occur downcased in the file; an unreadable file raises
      ArgumentError. `file` is the file's content, or None when it cannot be
      read. */
  function UserList(file: Option<string>): (r: Completion<seq<string>>)
    ensures r.Normal? <==> file.Some?
    ensures r.Abrupt? ==> r.exc == UnreadableUserFile
    ensures r.Normal? ==> Distinct(r.value)
    ensures r.Normal? ==> forall i :: 0 <= i < |r.value| ==> IsToken(r.value[i])
    ensures r.Normal? ==> forall i, j :: 0 <= i < |r.value| && 0 <= j < |r.value[i]| ==> !IsUpper(r.value[i][j])
    ensures r.Normal? ==> forall u :: u in r.value <==> exists t :: t in Split(file.value) && Downcase(t) == u
    ensures r.Normal? ==> forall i, j :: 0 <= i < j < |r.value| ==>
              && r.value[i] in DowncaseAll(Split(file.value)) && r.value[j] in DowncaseAll(Split(file.value))
              && FirstIndex(DowncaseAll(Split(file.value)), r.value[i]) < FirstIndex(DowncaseAll(Split(file.value)), r.value[j])
  {
    match file
    case None => Abrupt(UnreadableUserFile)
    case Some(text) =>
      NormalisedNames(text);
      Normal(Uniq(DowncaseAll(Split(text))))
  }

  /** The names `user_list` keeps from a readable file. */
  lemma NormalisedNames(text: string)
    ensures var users := Uniq(DowncaseAll(Split(text)));
      && Distinct(users)
      && (forall i :: 0 <= i < |users| ==> IsToken(users[i]))
      && (forall i, j :: 0 <= i < |users| && 0 <= j < |users[i]| ==> !IsUpper(users[i][j]))
      && (forall u :: u in users <==> exists t :: t in Split(text) && Downcase(t) == u)
  {
    var tokens := Split(text);
    var lowered := DowncaseAll(tokens);
    SplitTokens(text);
    forall i | 0 <= i < |lowered|
      ensures IsToken(lowered[i])
    {
      DowncaseToken(tokens[i]);
    }
    var users := Uniq(lowered);
    forall i | 0 <= i < |users|
      ensures IsToken(users[i]) && forall j :: 0 <= j < |users[i]| ==> !IsUpper(users[i][j])
    {
      assert users[i] in lowered;
      var k :| 0 <= k < |lowered| && lowered[k] == users[i];
    }
    DowncaseAllMembers(tokens);
  }

  /** Round trip: distinct lower-case user names written one per line load
      back as the same list, in the same order. */
  lemma UserListRoundTrip(users: seq<string>)
    requires forall i :: 0 <= i < |users| ==> IsToken(users[i])
    requires forall i, j :: 0 <= i < |users| && 0 <= j < |users[i]| ==> !IsUpper(users[i][j])
    requires Distinct(users)
    ensures UserList(Some(Join(users, "\n"))) == Normal(users)
  {
    SplitJoin(users, '\n');
    forall i | 0 <= i < |users|
      ensures Downcase(users[i]) == users[i]
    {
      DowncaseLower(users[i]);
    }
    assert DowncaseAll(users) == users;
    UniqOfDistinct(users);
  }

  /** `run_host`: check the server with the made-up user `decoy` on probe 0
      and, only when it is vulnerable, scan the user file from probe 1 on.
      `server(k)` is what the k-th connection of the run meets. */
  function RunHost(scope: Scope, server: nat -> Reply, decoy: string, file: Option<string>): HostRun
  {
    var start := [Print(Status, CheckingVulnerability), Probe(decoy)];
    var gate := CheckVulnerable(scope, server(0));
    match gate.verdict
    case Abrupt(e) => HostRun(start + gate.log, Some(e))
    case Normal(Safe) => HostRun(start + gate.log + [Print(Error, ServerNotVulnerable)], None)
    case Normal(Unreachable) => HostRun(start + gate.log + [Print(Error, ConnectionFailed)], None)
    case Normal(Vulnerable) =>
      var head := start + gate.log + [Print(Good, ServerVulnerable), Print(Status, StartingScan)];
      ScanPhase(head, UserList(file), Checks(server), 1, scope, Verbose)
  }

  /** What `run_host` promises about its run `r`. A server not shown
      vulnerable gets only the made-up user's probe and no finding; on a
      vulnerable one an unreadable file raises before any user probe, and
      otherwise the users are probed in list order after the made-up user,
      exactly those found are reported, and a run no exception ends has
      scanned every user. */
  ghost predicate RunPromise(scope: Scope, server: nat -> Reply, decoy: string, file: Option<string>, r: HostRun)
  {
    var vulnerable := CheckVulnerable(scope, server(0)).verdict == Normal(Vulnerable);
    && (!vulnerable ==> Probes(r.log) == [decoy] && Reports(r.log) == [])
    && (vulnerable && file.None? ==>
          r.escaped == Some(UnreadableUserFile) && Probes(r.log) == [decoy] && Reports(r.log) == [])
    && (file.Some? ==>
          var users := UserList(file).value;
          var s := ScanUsers(users, Checks(server), 1, scope, Verbose);
          && (vulnerable ==>
                && |s.attempts| == |s.finals| <= |users|
                && Probes(r.log) == [decoy] + Repeat(users[..|s.finals|], s.attempts)
                && Reports(r.log) == Successful(users[..|s.finals|], s.finals)
                && (r.escaped.None? ==> |s.finals| == |users|))
          && forall u :: u in Reports(r.log) <==>
               && vulnerable
               && exists i :: 0 <= i < |users| && i < |s.finals| && users[i] == u && s.finals[i] == Normal(Some(Success)))
  }

  /** `run_host` as the Ruby module runs it: the gate, then the scan loop; the
      run keeps `RunPromise`. */
  method ScanHost(scope: Scope, server: nat -> Reply, decoy: string, file: Option<string>) returns (r: HostRun)
    ensures r == RunHost(scope, server, decoy, file)
    ensures RunPromise(scope, server, decoy, file, r)
  {
    var start := [Print(Status, CheckingVulnerability), Probe(decoy)];
    var gate := CheckVulnerable(scope, server(0));
    match gate.verdict {
      case Abrupt(e) =>
        r := HostRun(start + gate.log, Some(e));
      case Normal(Safe) =>
        r := HostRun(start + gate.log + [Print(Error, ServerNotVulnerable)], None);
      case Normal(Unreachable) =>
        r := HostRun(start + gate.log + [Print(Error, ConnectionFailed)], None);
      case Normal(Vulnerable) =>
        var head := start + gate.log + [Print(Good, ServerVulnerable), Print(Status, StartingScan)];
        r := RunScanPhase(head, UserList(file), Checks(server), 1, scope, Verbose);
    }
    RunHostKeepsPromise(scope, server, decoy, file, r);
  }

  /** Every run of `run_host` keeps `RunPromise`. */
  lemma RunHostKeepsPromise(scope: Scope, server: nat -> Reply, decoy: string, file: Option<string>, r: HostRun)
    requires r == RunHost(scope, server, decoy, file)
    ensures RunPromise(scope, server, decoy, file, r)
  {
    RunHostFacts(scope, server, decoy, file);
    RunHostFindings(scope, server, decoy, file);
  }

  /** The run-level facts of `ScanHost`, by the gate's verdict. */
  lemma RunHostFacts(scope: Scope, server: nat -> Reply, decoy: string, file: Option<string>)
    ensures var r := RunHost(scope, server, decoy, file);
      && (CheckVulnerable(scope, server(0)).verdict != Normal(Vulnerable) ==>
            Probes(r.log) == [decoy] && Reports(r.log) == [])
      && (CheckVulnerable(scope, server(0)).verdict == Normal(Vulnerable) && file.None? ==>
            r.escaped == Some(UnreadableUserFile) && Probes(r.log) == [decoy] && Reports(r.log) == [])
      && (CheckVulnerable(scope, server(0)).verdict == Normal(Vulnerable) && file.Some? ==>
            var users := UserList(file).value;
            var s := ScanUsers(users, Checks(server), 1, scope, Verbose);
            && |s.attempts| == |s.finals| <= |users|
            && Probes(r.log) == [decoy] + Repeat(users[..|s.finals|], s.attempts)
            && Reports(r.log) == Successful(users[..|s.finals|], s.finals)
            && (r.escaped.None? ==> |s.finals| == |users|))
  {
    if CheckVulnerable(scope, server(0)).verdict != Normal(Vulnerable) {
      NoScanUnlessVulnerable(scope, server, decoy, file);
    } else if file.None? {
      UnreadableFileEndsRun(scope, server, decoy);
    } else {
      ScanWhenVulnerable(scope, server, decoy, file.value);
    }
  }

  /** The users `ScanHost` reports are exactly the ones found. */
  lemma RunHostFindings(scope: Scope, server: nat -> Reply, decoy: string, file: Option<string>)
    ensures file.Some? ==>
              var users := UserList(file).value;
              var s := ScanUsers(users, Checks(server), 1, scope, Verbose);
              forall u :: u in Reports(RunHost(scope, server, decoy, file).log) <==>
                && CheckVulnerable(scope, server(0)).verdict == Normal(Vulnerable)
                && exists i :: 0 <= i < |users| && i < |s.finals| && users[i] == u && s.finals[i] == Normal(Some(Success))
  {
    if file.Some? {
      forall u
        ensures var users := UserList(file).value;
                var s := ScanUsers(users, Checks(server), 1, scope, Verbose);
          u in Reports(RunHost(scope, server, decoy, file).log) <==>
            && CheckVulnerable(scope, server(0)).verdict == Normal(Vulnerable)
            && exists i :: 0 <= i < |users| && i < |s.finals| && users[i] == u && s.finals[i] == Normal(Some(Success))
      {
        ReportedIffFound(scope, server, decoy, file.value, u);
      }
    }
  }

  /** The messages before the first user is probed make one probe, for the
      made-up user, and report nothing. */
  lemma GateLog(scope: Scope, server: nat -> Reply, decoy: string, tail: seq<Event>)
    requires Probes(tail) == [] && Reports(tail) == []
    ensures var log := [Print(Status, CheckingVulnerability), Probe(decoy)] + CheckVulnerable(scope, server(0)).log + tail;
      Probes(log) == [decoy] && Reports(log) == []
  {
    var start := [Print(Status, CheckingVulnerability), Probe(decoy)];
    assert start == [Print(Status, CheckingVulnerability)] + [Probe(decoy)];
    ProbesAppend([Print(Status, CheckingVulnerability)], [Probe(decoy)]);
    ReportsAppend([Print(Status, CheckingVulnerability)], [Probe(decoy)]);
    Append3(start, CheckVulnerable(scope, server(0)).log, tail);
  }

  /** A server that is not shown vulnerable gets no user probe and no
      finding: the only connection of the run is the one for the made-up
      user. */
  lemma NoScanUnlessVulnerable(scope: Scope, server: nat -> Reply, decoy: string, file: Option<string>)
    requires CheckVulnerable(scope, server(0)).verdict != Normal(Vulnerable)
    ensures Probes(RunHost(scope, server, decoy, file).log) == [decoy]
    ensures Reports(RunHost(scope, server, decoy, file).log) == []
    ensures RunHost(scope, server, decoy, file).escaped.Some? <==> server(0).AuthRaised? || (server(0).TransportRaised? && !ConnectionLevel(server(0).exc))
  {
    var gate := CheckVulnerable(scope, server(0));
    var start := [Print(Status, CheckingVulnerability), Probe(decoy)];
    if gate.verdict.Abrupt? {
      assert RunHost(scope, server, decoy, file) == HostRun(start + gate.log, Some(gate.verdict.exc));
      GateLog(scope, server, decoy, []);
      assert start + gate.log + [] == start + gate.log;
    } else if gate.verdict == Normal(Safe) {
      assert RunHost(scope, server, decoy, file) == HostRun(start + gate.log + [Print(Error, ServerNotVulnerable)], None);
      GateLog(scope, server, decoy, [Print(Error, ServerNotVulnerable)]);
    } else {
      assert RunHost(scope, server, decoy, file) == HostRun(start + gate.log + [Print(Error, ConnectionFailed)], None);
      GateLog(scope, server, decoy, [Print(Error, ConnectionFailed)]);
    }
  }

  /** The run of a vulnerable server is the scan phase after the gate's
      messages. */
  lemma VulnerableRun(scope: Scope, server: nat -> Reply, decoy: string, file: Option<string>)
    requires CheckVulnerable(scope, server(0)).verdict == Normal(Vulnerable)
    ensures var head := [Print(Status, CheckingVulnerability), Probe(decoy)] + CheckVulnerable(scope, server(0)).log
                        + [Print(Good, ServerVulnerable), Print(Status, StartingScan)];
      && RunHost(scope, server, decoy, file) == ScanPhase(head, UserList(file), Checks(server), 1, scope, Verbose)
      && Probes(head) == [decoy] && Reports(head) == []
  {
    GateLog(scope, server, decoy, [Print(Good, ServerVulnerable), Print(Status, StartingScan)]);
  }

  /** An unreadable user file ends the run of a vulnerable server before
      any user is probed. */
  lemma UnreadableFileEndsRun(scope: Scope, server: nat -> Reply, decoy: string)
    requires CheckVulnerable(scope, server(0)).verdict == Normal(Vulnerable)
    ensures var r := RunHost(scope, server, decoy, None);
      r.escaped == Some(UnreadableUserFile) && Probes(r.log) == [decoy] && Reports(r.log) == []
  {
    VulnerableRun(scope, server, decoy, None);
  }

  /** On a vulnerable server the users of the file are probed in order,
      each with its retries, from probe 1 on; exactly the users found are
      reported; and a run no exception ends has scanned every user. */
  lemma ScanWhenVulnerable(scope: Scope, server: nat -> Reply, decoy: string, text: string)
    requires CheckVulnerable(scope, server(0)).verdict == Normal(Vulnerable)
    ensures var users := UserList(Some(text)).value;
            var s := ScanUsers(users, Checks(server), 1, scope, Verbose);
            var r := RunHost(scope, server, decoy, Some(text));
      && |s.attempts| == |s.finals| <= |users|
      && Probes(r.log) == [decoy] + Repeat(users[..|s.finals|], s.attempts)
      && Reports(r.log) == Successful(users[..|s.finals|], s.finals)
      && (r.escaped.None? ==> |s.finals| == |users|)
  {
    VulnerableRun(scope, server, decoy, Some(text));
    var head := [Print(Status, CheckingVulnerability), Probe(decoy)] + CheckVulnerable(scope, server(0)).log
                + [Print(Good, ServerVulnerable), Print(Status, StartingScan)];
    ScanPhaseFacts(head, UserList(Some(text)).value, Checks(server), 1, scope, Verbose);
  }

  /** A user is reported exactly when the server is vulnerable, the file
      lists the user, and the user's attempts end in `:success`. */
  lemma ReportedIffFound(scope: Scope, server: nat -> Reply, decoy: string, text: string, u: string)
    ensures var users := UserList(Some(text)).value;
            var s := ScanUsers(users, Checks(server), 1, scope, Verbose);
      u in Reports(RunHost(scope, server, decoy, Some(text)).log) <==>
        && CheckVulnerable(scope, server(0)).verdict == Normal(Vulnerable)
        && exists i :: 0 <= i < |users| && i < |s.finals| && users[i] == u && s.finals[i] == Normal(Some(Success))
  {
    if CheckVulnerable(scope, server(0)).verdict == Normal(Vulnerable) {
      VulnerableRun(scope, server, decoy, Some(text));
      var head := [Print(Status, CheckingVulnerability), Probe(decoy)] + CheckVulnerable(scope, server(0)).log
                  + [Print(Good, ServerVulnerable), Print(Status, StartingScan)];
      ScanPhaseFindings(head, UserList(Some(text)).value, Checks(server), 1, scope, Verbose, u);
    } else {
      NoScanUnlessVulnerable(scope, server, decoy, Some(text));
    }
  }
}

=== FILE: events.dfy ===
/** The append-only log that stands for everything a scan does outside its
    own logic: console messages, sleeps, connections opened, and records
    handed to the reporting database. */
module Events {

  /** print_status, print_good, print_error, print_debug, vprint_status */
  datatype Level = Status | Good | Error | Debug | Verbose

  /** The console messages, without the "host:port SSH -" prefix. */
  datatype Message =
    | CheckingVulnerability | ServerVulnerable | ServerNotVulnerable | ConnectionFailed
    | CheckingFalsePositives | FalsePositive
    | StartingScan
    | ServerVersion(version: string)
    | Retrying(user: string)
    | UserFound(user: string)
    | UserNotFound(user: string)
    | UserUnreachable(user: string)

  /** What `report_auth_info` records for a valid user name. */
  datatype Finding = Finding(host: string, port: int, service: string, user: string, active: bool)

  /** What `report_service` records about the SSH service. */
  datatype Service = Service(host: string, port: int, name: string, proto: string, info: string)

  datatype Event =
    | Print(level: Level, message: Message)
    | Sleep(seconds: nat)           // Rex.sleep
    | Probe(user: string)           // one SSH connection opened for `user`
    | ReportService(service: Service)
    | ReportAuth(finding: Finding)

  /** The user names of the probes in `log`, in order. */
  function Probes(log: seq<Event>): seq<string>
  {
    if |log| == 0 then []
    else
      var last := log[|log| - 1];
      Probes(log[..|log| - 1]) + (if last.Probe? then [last.user] else [])
  }

  /** The durations of the sleeps in `log`, in order. */
  function Sleeps(log: seq<Event>): seq<nat>
  {
    if |log| == 0 then []
    else
      var last := log[|log| - 1];
      Sleeps(log[..|log| - 1]) + (if last.Sleep? then [last.seconds] else [])
  }

  /** The user names of the findings reported in `log`, in order. */
  function Reports(log: seq<Event>): seq<string>
  {
    if |log| == 0 then []
    else
      var last := log[|log| - 1];
      Reports(log[..|log| - 1]) + (if last.ReportAuth? then [last.finding.user] else [])
  }

  lemma {:induction false} ProbesAppend(a: seq<Event>, b: seq<Event>)
    ensures Probes(a + b) == Probes(a) + Probes(b)
    decreases |b|
  {
    if |b| > 0 {
      var b' := b[..|b| - 1];
      assert (a + b)[..|a + b| - 1] == a + b';
      ProbesAppend(a, b');
    } else {
      assert a + b == a;
    }
  }

  lemma {:induction false} SleepsAppend(a: seq<Event>, b: seq<Event>)
    ensures Sleeps(a + b) == Sleeps(a) + Sleeps(b)
    decreases |b|
  {
    if |b| > 0 {
      var b' := b[..|b| - 1];
      assert (a + b)[..|a + b| - 1] == a + b';
      SleepsAppend(a, b');
    } else {
      assert a + b == a;
    }
  }

  lemma {:induction false} ReportsAppend(a: seq<Event>, b: seq<Event>)
    ensures Reports(a + b) == Reports(a) + Reports(b)
    decreases |b|
  {
    if |b| > 0 {
      var b' := b[..|b| - 1];
      assert (a + b)[..|a + b| - 1] == a + b';
      ReportsAppend(a, b');
    } else {
      assert a + b == a;
    }
  }

  /** All three projections distribute over a three-part log. */
  lemma Append3(a: seq<Event>, b: seq<Event>, c: seq<Event>)
    ensures Probes(a + b + c) == Probes(a) + Probes(b) + Probes(c)
    ensures Sleeps(a + b + c) == Sleeps(a) + Sleeps(b) + Sleeps(c)
    ensures Reports(a + b + c) == Reports(a) + Reports(b) + Reports(c)
  {
    ProbesAppend(a + b, c);
    ProbesAppend(a, b);
    SleepsAppend(a + b, c);
    SleepsAppend(a, b);
    ReportsAppend(a + b, c);
    ReportsAppend(a, b);
  }
}

=== FILE: outcomes.dfy ===
/** Values shared by both enumeration modules: the outcome symbols a probe
    yields, the Ruby exceptions a probe may raise, and how a chain of
    `rescue` clauses picks the one that handles a raised exception. */
module Outcomes {

  datatype Option<T> = None | Some(value: T)

  /** The symbols `check_user` and `attempt_user` return:
      `:success`, `:fail` and `:connection_error`. */
  datatype Outcome = Success | Fail | ConnectionError

  /** An exception a probe can raise, named by its most specific class. */
  datatype Exc =
    | ConnectionRefused     // Rex::ConnectionRefused, a Rex::ConnectionError
    | ConnectionTimeout     // Rex::ConnectionTimeout, a Rex::ConnectionError
    | HostUnreachable       // Rex::HostUnreachable, a Rex::ConnectionError
    | AddressInUse          // Rex::AddressInUse
    | Disconnect            // Net::SSH::Disconnect, a Net::SSH::Exception
    | EndOfFile             // ::EOFError
    | TimeoutExpired        // ::Timeout::Error, raised by the SSH_TIMEOUT guard
    | AuthenticationFailed  // Net::SSH::AuthenticationFailed, a Net::SSH::Exception
    | OtherSshError         // any other Net::SSH::Exception
    | UnreadableUserFile    // the ArgumentError `user_list` raises
    | OtherError            // anything no module rescues

  /** The classes named in the modules' `rescue` clauses. */
  datatype ExcClass =
    | RexConnectionError | RexAddressInUse | SshDisconnect | EOFError
    | TimeoutError | SshException

  /** Ruby's `is_a?`: Net::SSH::Disconnect is also a Net::SSH::Exception. */
  predicate IsA(e: Exc, c: ExcClass) {
    match c
    case RexConnectionError => e == ConnectionRefused || e == ConnectionTimeout || e == HostUnreachable
    case RexAddressInUse => e == AddressInUse
    case SshDisconnect => e == Disconnect
    case EOFError => e == EndOfFile
    case TimeoutError => e == TimeoutExpired
    case SshException => e == Disconnect || e == AuthenticationFailed || e == OtherSshError
  }

  /** A connection-level exception: Rex::ConnectionError or Rex::AddressInUse. */
  predicate ConnectionLevel(e: Exc) {
    IsA(e, RexConnectionError) || IsA(e, RexAddressInUse)
  }

  /** How a Ruby expression finished: with a value, or by raising. */
  datatype Completion<T> = Normal(value: T) | Abrupt(exc: Exc)

  /** The body of a `rescue` clause: return a symbol, or do nothing (which
      lets control fall through past the `begin` block). */
  datatype Handler = Return(outcome: Outcome) | Swallow

  /** `rescue C1, C2, ... => body` */
  datatype Clause = Clause(classes: seq<ExcClass>, handler: Handler)

  predicate Catches(clause: Clause, e: Exc) {
    exists i :: 0 <= i < |clause.classes| && IsA(e, clause.classes[i])
  }

  /** A clause naming one class catches exactly the instances of it. */
  lemma CatchesOne(c: ExcClass, h: Handler, e: Exc)
    ensures Catches(Clause([c], h), e) <==> IsA(e, c)
  {
    if IsA(e, c) {
      assert [c][0] == c;
    }
  }

  /** A clause naming two classes catches exactly the instances of either. */
  lemma CatchesTwo(a: ExcClass, b: ExcClass, h: Handler, e: Exc)
    ensures Catches(Clause([a, b], h), e) <==> IsA(e, a) || IsA(e, b)
  {
    if IsA(e, a) {
      assert [a, b][0] == a;
    } else if IsA(e, b) {
      assert [a, b][1] == b;
    }
  }

  /** Index of the first clause of `chain` that catches `e`, or `|chain|` when
      none does: Ruby tries the clauses of a `begin` block in order. */
  function FirstCatch(e: Exc, chain: seq<Clause>): (k: nat)
    ensures k <= |chain|
    ensures k < |chain| ==> Catches(chain[k], e)
    ensures forall j :: 0 <= j < k ==> !Catches(chain[j], e)
  {
    if |chain| == 0 then 0
    else if Catches(chain[0], e) then 0
    else 1 + FirstCatch(e, chain[1..])
  }

  /** The handler that runs when `e` is raised inside a `begin` block with
      the clauses `chain`, or None when `e` escapes the block. */
  function Rescue(e: Exc, chain: seq<Clause>): (h: Option<Handler>)
    ensures h.None? <==> forall j :: 0 <= j < |chain| ==> !Catches(chain[j], e)
    ensures h.Some? ==> exists k :: 0 <= k < |chain| && chain[k].handler == h.value
                                    && Catches(chain[k], e)
                                    && forall j :: 0 <= j < k ==> !Catches(chain[j], e)
  {
    var k := FirstCatch(e, chain);
    if k < |chain| then Some(chain[k].handler) else None
  }
}

=== FILE: retry.dfy ===
/** `attempt_user`: one user name probed with bounded retries and
    exponential backoff. Both modules define it identically. The probes are
    a classified stream `checks`: `checks(k)` is what `check_user` yields on
    the k-th probe of the run, and `pos` is the number of probes made before
    this call. */
module RetryControl {
  import opened Outcomes
  import opened Events

  function Pow2(k: nat): (r: nat)
    ensures r >= 1
  {
    if k == 0 then 1 else 2 * Pow2(k - 1)
  }

  /** The sleeps `attempt_user` makes when it makes `n` attempts: none
      before the first, `2 ** attempt_num` seconds before each later one. */
  function Backoff(n: nat): seq<nat>
  {
    if n <= 1 then [] else Backoff(n - 1) + [Pow2(n - 1)]
  }

  /** The backoff schedule is 2, 4, 8, ... seconds: the sleep before attempt
      k (counting from 0) lasts 2^k seconds. */
  lemma {:induction false} BackoffSchedule(n: nat)
    ensures |Backoff(n)| == if n == 0 then 0 else n - 1
    ensures forall i :: 0 <= i < |Backoff(n)| ==> Backoff(n)[i] == Pow2(i + 1)
  {
    if n > 1 {
      BackoffSchedule(n - 1);
    }
  }

  function Sum(xs: seq<nat>): nat
  {
    if |xs| == 0 then 0 else Sum(xs[..|xs| - 1]) + xs[|xs| - 1]
  }

  /** After n attempts the probe has slept 2^n - 2 seconds in all. */
  lemma {:induction false} BackoffTotal(n: nat)
    requires n >= 1
    ensures Sum(Backoff(n)) == Pow2(n) - 2
  {
    if n > 1 {
      BackoffTotal(n - 1);
      assert Backoff(n)[..|Backoff(n)| - 1] == Backoff(n - 1);
    }
  }

  /** `show_result` and friends see the Ruby value of `ret`: nil when no
      attempt was made, the last symbol otherwise. */
  function Lift(c: Completion<Outcome>): Completion<Option<Outcome>>
  {
    match c
    case Normal(o) => Normal(Some(o))
    case Abrupt(e) => Abrupt(e)
  }

  /** Attempts allowed: the loop runs while `attempt_num <= retry_num`. */
  function MaxAttempts(retryNum: int): nat
  {
    if retryNum < 0 then 0 else retryNum + 1
  }

  /** The number of attempts `attempt_user` makes from attempt index `k` on:
      it goes on while the count allows and the last probe was a connection
      error. */
  function AttemptsFrom(checks: nat -> Completion<Outcome>, pos: nat, retryNum: int, k: nat): (n: nat)
    decreases retryNum + 1 - k
    ensures k > retryNum ==> n == 0
    ensures k <= retryNum ==> 1 <= n <= retryNum + 1 - k
  {
    if k > retryNum then 0
    else if checks(pos + k) == Normal(ConnectionError) then 1 + AttemptsFrom(checks, pos, retryNum, k + 1)
    else 1
  }

  /** The attempts from index `k` on go on exactly through connection
      errors: every probe but the last was one, and an early stop follows
      another result. */
  lemma {:induction false} AttemptsFromStops(checks: nat -> Completion<Outcome>, pos: nat, retryNum: int, k: nat)
    decreases retryNum + 1 - k
    ensures var n := AttemptsFrom(checks, pos, retryNum, k);
      && (forall j :: pos + k <= j < pos + k + n - 1 ==> checks(j) == Normal(ConnectionError))
      && (n > 0 && k + n <= retryNum ==> checks(pos + k + n - 1) != Normal(ConnectionError))
  {
    if k <= retryNum && checks(pos + k) == Normal(ConnectionError) {
      AttemptsFromStops(checks, pos, retryNum, k + 1);
    }
  }

  /** The log of `n` attempts for `user`: before every attempt but the first
      a sleep and a debug message, then the probe itself. */
  function RetryLog(user: string, n: nat): seq<Event>
  {
    if n == 0 then []
    else
      RetryLog(user, n - 1) + Pause(user, n) + [Probe(user)]
  }

  /** The pause `attempt_user` makes before its n-th attempt. */
  function Pause(user: string, n: nat): seq<Event>
  {
    if n > 1 then [Sleep(Pow2(n - 1)), Print(Debug, Retrying(user))] else []
  }

  /** `n` attempts probe `user` `n` times, sleep 2, 4, 8, ... seconds in
      between, start with a probe rather than a sleep, and report nothing. */
  lemma RetryLogShape(user: string, n: nat)
    ensures Probes(RetryLog(user, n)) == Copies(user, n)
    ensures Sleeps(RetryLog(user, n)) == Backoff(n)
    ensures Reports(RetryLog(user, n)) == []
    ensures n > 0 ==> |RetryLog(user, n)| > 0 && RetryLog(user, n)[0] == Probe(user)
    ensures n > 0 ==> Layout(user, RetryLog(user, n))
  {
    RetryLogProbes(user, n);
    RetryLogSleeps(user, n);
    RetryLogReports(user, n);
    RetryLogFirst(user, n);
    if n > 0 {
      RetryLogLayout(user, n);
    }
  }

  /** The log of attempts, entry by entry, in groups of three: the k-th
      probe (from 0) at 3k, and before every later probe the sleep of 2^k
      seconds at 3k - 2 and the retry message at 3k - 1. */
  predicate Layout(user: string, log: seq<Event>)
  {
    && |log| % 3 == 1
    && forall j :: 0 <= j < |log| ==>
         && (j % 3 == 0 ==> log[j] == Probe(user))
         && (j % 3 == 1 ==> log[j] == Sleep(Pow2(j / 3 + 1)))
         && (j % 3 == 2 ==> log[j] == Print(Debug, Retrying(user)))
  }

  /** `n` attempts log `3n - 2` events laid out as `Layout` says: each sleep
      falls between two probes. */
  lemma {:induction false} RetryLogLayout(user: string, n: nat)
    requires n > 0
    ensures |RetryLog(user, n)| == 3 * n - 2
    ensures Layout(user, RetryLog(user, n))
  {
    if n == 1 {
      assert RetryLog(user, 1) == [Probe(user)];
    } else {
      RetryLogLayout(user, n - 1);
      var prev := RetryLog(user, n - 1);
      var log := prev + [Sleep(Pow2(n - 1)), Print(Debug, Retrying(user)), Probe(user)];
      assert RetryLog(user, n) == log;
      forall j | |prev| <= j < |log|
        ensures (j % 3 == 0 ==> log[j] == Probe(user))
             && (j % 3 == 1 ==> log[j] == Sleep(Pow2(j / 3 + 1)))
             && (j % 3 == 2 ==> log[j] == Print(Debug, Retrying(user)))
      {
        assert |prev| == 3 * (n - 2) + 1;
        if j == |prev| {
          assert j % 3 == 1 && j / 3 + 1 == n - 1;
        } else if j == |prev| + 1 {
          assert j % 3 == 2;
        } else {
          assert j % 3 == 0;
        }
      }
      assert forall j :: 0 <= j < |prev| ==> log[j] == prev[j];
    }
  }

  lemma {:induction false} RetryLogProbes(user: string, n: nat)
    ensures Probes(RetryLog(user, n)) == Copies(user, n)
  {
    if n > 0 {
      RetryLogProbes(user, n - 1);
      ProbesAppend(RetryLog(user, n - 1) + Pause(user, n), [Probe(user)]);
      ProbesAppend(RetryLog(user, n - 1), Pause(user, n));
    }
  }

  lemma {:induction false} RetryLogSleeps(user: string, n: nat)
    ensures Sleeps(RetryLog(user, n)) == Backoff(n)
  {
    if n > 0 {
      RetryLogSleeps(user, n - 1);
      SleepsAppend(RetryLog(user, n - 1) + Pause(user, n), [Probe(user)]);
      SleepsAppend(RetryLog(user, n - 1), Pause(user, n));
    }
  }

  lemma {:induction false} RetryLogReports(user: string, n: nat)
    ensures Reports(RetryLog(user, n)) == []
  {
    if n > 0 {
      RetryLogReports(user, n - 1);
      ReportsAppend(RetryLog(user, n - 1) + Pause(user, n), [Probe(user)]);
      ReportsAppend(RetryLog(user, n - 1), Pause(user, n));
    }
  }

  lemma {:induction false} RetryLogFirst(user: string, n: nat)
    ensures n > 0 ==> |RetryLog(user, n)| > 0 && RetryLog(user, n)[0] == Probe(user)
  {
    if n > 1 {
      RetryLogFirst(user, n - 1);
    }
  }

  /** `n` copies of `user` */
  function Copies(user: string, n: nat): seq<string>
  {
    if n == 0 then [] else Copies(user, n - 1) + [user]
  }

  datatype Attempted = Attempted(result: Completion<Option<Outcome>>, attempts: nat, log: seq<Event>)

  /** What `attempt_user` does for `user`: its final value, the number of
      probes it makes, and its log. */
  function Retry(user: string, checks: nat -> Completion<Outcome>, pos: nat, retryNum: int): Attempted
  {
    var n := AttemptsFrom(checks, pos, retryNum, 0);
    Attempted(LastResult(checks, pos, n), n, RetryLog(user, n))
  }

  /** The value `attempt_user` ends with after `n` probes from `pos`: nil
      without probes, else what the last probe produced. */
  function LastResult(checks: nat -> Completion<Outcome>, pos: nat, n: nat): Completion<Option<Outcome>>
  {
    if n == 0 then Normal(None) else Lift(checks(pos + n - 1))
  }

  /** The retry policy of `attempt_user`. */
  lemma RetryPolicy(user: string, checks: nat -> Completion<Outcome>, pos: nat, retryNum: int)
    ensures var a := Retry(user, checks, pos, retryNum);
      // never more than retry_num + 1 probes, and at least one when retry_num >= 0
      && a.attempts <= MaxAttempts(retryNum)
      && (retryNum >= 0 <==> a.attempts >= 1)
      // every probe but the last was a connection error
      && (forall j :: pos <= j < pos + a.attempts - 1 ==> checks(j) == Normal(ConnectionError))
      // it stops early only on a result other than a connection error
      && (0 < a.attempts < MaxAttempts(retryNum) ==> checks(pos + a.attempts - 1) != Normal(ConnectionError))
      // the result is nil without attempts, else the last probe's result
      && (a.attempts == 0 ==> a.result == Normal(None))
      && (a.attempts > 0 ==> a.result == Lift(checks(pos + a.attempts - 1)))
      // one probe per attempt, sleeps of 2, 4, 8, ... seconds between the
      // probes and none before the first, no finding reported
      && Probes(a.log) == Copies(user, a.attempts)
      && Sleeps(a.log) == Backoff(a.attempts)
      && (a.attempts > 0 ==> a.log[0] == Probe(user))
      && Reports(a.log) == []
  {
    var n := AttemptsFrom(checks, pos, retryNum, 0);
    RetryLogProbes(user, n);
    RetryLogSleeps(user, n);
    RetryLogReports(user, n);
    RetryLogFirst(user, n);
    AttemptsFromStops(checks, pos, retryNum, 0);
  }

  /** A final connection error means every allowed attempt failed to
      connect. */
  lemma ConnectionErrorOnlyWhenExhausted(user: string, checks: nat -> Completion<Outcome>, pos: nat, retryNum: int)
    requires Retry(user, checks, pos, retryNum).result == Normal(Some(ConnectionError))
    ensures Retry(user, checks, pos, retryNum).attempts == retryNum + 1
    ensures forall j :: pos <= j <= pos + retryNum ==> checks(j) == Normal(ConnectionError)
  {
    var a := Retry(user, checks, pos, retryNum);
    RetryPolicy(user, checks, pos, retryNum);
    assert a.attempts > 0;
    assert checks(pos + a.attempts - 1) == Normal(ConnectionError);
  }

  /** `attempt_user`, as the `while` loop of the Ruby module. */
  method AttemptUser(user: string, checks: nat -> Completion<Outcome>, pos: nat, retryNum: int)
    returns (result: Completion<Option<Outcome>>, attempts: nat, log: seq<Event>)
    ensures attempts == AttemptsFrom(checks, pos, retryNum, 0)
    ensures result == if attempts == 0 then Normal(None) else Lift(checks(pos + attempts - 1))
    ensures log == RetryLog(user, attempts)
  {
    var attemptNum: nat := 0;
    var ret: Option<Outcome> := None;
    log := [];
    while attemptNum <= retryNum && (ret.None? || ret == Some(ConnectionError))
      invariant attemptNum <= MaxAttempts(retryNum)
      invariant attemptNum == 0 <==> ret.None?
      invariant attemptNum > 0 ==> checks(pos + attemptNum - 1) == Normal(ret.value)
      invariant log == RetryLog(user, attemptNum)
      invariant (ret.None? || ret == Some(ConnectionError)) ==>
        AttemptsFrom(checks, pos, retryNum, 0) == attemptNum + AttemptsFrom(checks, pos, retryNum, attemptNum)
      invariant !(ret.None? || ret == Some(ConnectionError)) ==>
        AttemptsFrom(checks, pos, retryNum, 0) == attemptNum
      decreases retryNum + 1 - attemptNum
    {
      if attemptNum > 0 {
        log := log + [Sleep(Pow2(attemptNum)), Print(Debug, Retrying(user))];
      }
      log := log + [Probe(user)];
      assert log == RetryLog(user, attemptNum + 1);
      var c := checks(pos + attemptNum);
      assert AttemptsFrom(checks, pos, retryNum, attemptNum) ==
        if c == Normal(ConnectionError) then 1 + AttemptsFrom(checks, pos, retryNum, attemptNum + 1) else 1;
      if c.Abrupt? {
        // the exception leaves `attempt_user` at once
        return Abrupt(c.exc), attemptNum + 1, log;
      }
      ret := Some(c.value);
      attemptNum := attemptNum + 1;
    }
    return Normal(ret), attemptNum, log;
  }

  /** The backoff seen when the first two probes fail to connect and the
      third gets an answer: two sleeps, of 2 and then 4 seconds. */
  lemma TwoConnectionErrorsThenAnswer(user: string, checks: nat -> Completion<Outcome>)
    requires checks(0) == Normal(ConnectionError) && checks(1) == Normal(ConnectionError)
    requires checks(2) == Normal(Fail)
    ensures Retry(user, checks, 0, 3).result == Normal(Some(Fail))
    ensures Retry(user, checks, 0, 3).attempts == 3
    ensures Sleeps(Retry(user, checks, 0, 3).log) == [2, 4]
  {
    assert AttemptsFrom(checks, 0, 3, 2) == 1;
    assert AttemptsFrom(checks, 0, 3, 1) == 2;
    assert AttemptsFrom(checks, 0, 3, 0) == 3;
    RetryPolicy(user, checks, 0, 3);
    BackoffSchedule(3);
  }
}

=== FILE: scan.dfy ===
/** The part of `run_host` both modules share once their gate lets the scan
    proceed: every user of the list, in order, gets its retried attempts and
    then its result message. */
module Scan {
  import opened Outcomes
  import opened Events
  import opened RetryControl

  /** The target and the retry count, read once from the datastore. */
  datatype Scope = Scope(host: string, port: int, retryNum: int)

  /** `show_result`: a message for every outcome symbol, and a finding handed
      to the reporting database for `:success` only. `notFound` is the level
      the module prints "not found" at; nil prints nothing. */
  function ShowResult(scope: Scope, user: string, ret: Option<Outcome>, notFound: Level): seq<Event>
  {
    match ret
    case Some(Success) =>
      [Print(Good, UserFound(user)), ReportAuth(Finding(scope.host, scope.port, "ssh", user, true))]
    case Some(ConnectionError) => [Print(Error, UserUnreachable(user))]
    case Some(Fail) => [Print(notFound, UserNotFound(user))]
    case None => []
  }

  /** `show_result` reports the user exactly when the outcome is `:success`,
      as a valid SSH login on the target; otherwise it only prints. Every
      symbol starts with its message, at the module's level for `:fail`,
      and nil leaves the log empty. No connection is opened. */
  lemma ShowResultFacts(scope: Scope, user: string, ret: Option<Outcome>, notFound: Level)
    ensures var log := ShowResult(scope, user, ret, notFound);
      && Reports(log) == (if ret == Some(Success) then [user] else [])
      && Probes(log) == [] && Sleeps(log) == []
      && FindingsAre(log, Finding(scope.host, scope.port, "ssh", user, true))
      && (forall e :: e in log ==> e.Print? || e.ReportAuth?)
      && (ret.Some? <==> |log| > 0)
      && (ret == Some(Success) ==> log[0] == Print(Good, UserFound(user)))
      && (ret == Some(ConnectionError) ==> log[0] == Print(Error, UserUnreachable(user)))
      && (ret == Some(Fail) ==> log[0] == Print(notFound, UserNotFound(user)))
  {
    var log := ShowResult(scope, user, ret, notFound);
    match ret
    case Some(Success) =>
      var found := [Print(Good, UserFound(user))];
      var report := [ReportAuth(Finding(scope.host, scope.port, "ssh", user, true))];
      assert log == found + report;
      ReportsAppend(found, report);
      ProbesAppend(found, report);
      SleepsAppend(found, report);
    case Some(ConnectionError) =>
      assert log == [] + [Print(Error, UserUnreachable(user))];
    case Some(Fail) =>
      assert log == [] + [Print(notFound, UserNotFound(user))];
    case None =>
      assert log == [];
  }

  /** Every finding reported in `log` is `f`. */
  predicate FindingsAre(log: seq<Event>, f: Finding)
  {
    forall i :: 0 <= i < |log| && log[i].ReportAuth? ==> log[i].finding == f
  }

  /** Every user of `users`, user i repeated `counts[i]` times. */
  function Repeat(users: seq<string>, counts: seq<nat>): seq<string>
    requires |users| == |counts|
  {
    if |users| == 0 then []
    else Repeat(users[..|users| - 1], counts[..|counts| - 1]) + Copies(users[|users| - 1], counts[|counts| - 1])
  }

  /** The users whose attempts ended in `:success`, in list order. */
  function Successful(users: seq<string>, finals: seq<Completion<Option<Outcome>>>): seq<string>
    requires |users| == |finals|
  {
    if |users| == 0 then []
    else
      var n := |users| - 1;
      var prev := Successful(users[..n], finals[..n]);
      prev + (if finals[n] == Normal(Some(Success)) then [users[n]] else [])
  }

  /** A user is among the findings exactly when one of its entries ended in
      `:success`. */
  lemma {:induction false} SuccessfulMembers(users: seq<string>, finals: seq<Completion<Option<Outcome>>>, u: string)
    requires |users| == |finals|
    ensures u in Successful(users, finals) <==>
              exists i :: 0 <= i < |users| && users[i] == u && finals[i] == Normal(Some(Success))
    decreases |users|
  {
    if |users| > 0 {
      var n := |users| - 1;
      SuccessfulMembers(users[..n], finals[..n], u);
      if u in Successful(users[..n], finals[..n]) {
        var i :| 0 <= i < n && users[..n][i] == u && finals[..n][i] == Normal(Some(Success));
        assert users[i] == u && finals[i] == Normal(Some(Success));
      }
      if exists i :: 0 <= i < |users| && users[i] == u && finals[i] == Normal(Some(Success)) {
        var i :| 0 <= i < |users| && users[i] == u && finals[i] == Normal(Some(Success));
        if i < n {
          assert users[..n][i] == u && finals[..n][i] == Normal(Some(Success));
        }
      }
    }
  }

  /** Only the last result, if any, is an exception. */
  predicate NoneHaltedBefore(finals: seq<Completion<Option<Outcome>>>)
  {
    forall i :: 0 <= i < |finals| - 1 ==> finals[i].Normal?
  }

  /** The state of the scan after some users: the log so far, the attempts
      and final result of each user scanned, and the number of probes made. */
  datatype ScanState = ScanState(log: seq<Event>, attempts: seq<nat>, finals: seq<Completion<Option<Outcome>>>, next: nat)
  {
    /** An exception escaped the last user's attempts and ended the scan. */
    predicate Halted() {
      |finals| > 0 && finals[|finals| - 1].Abrupt?
    }
  }

  /** The next user's attempts and their result message. */
  function Step(s: ScanState, user: string, checks: nat -> Completion<Outcome>, scope: Scope, notFound: Level): ScanState
  {
    var a := Retry(user, checks, s.next, scope.retryNum);
    var shown := if a.result.Normal? then ShowResult(scope, user, a.result.value, notFound) else [];
    ScanState(s.log + a.log + shown, s.attempts + [a.attempts], s.finals + [a.result], s.next + a.attempts)
  }

  /** The scan of `users` whose first probe is probe number `pos` of the run:
      each user in list order gets one `Step`, until an exception escapes. */
  function ScanUsers(users: seq<string>, checks: nat -> Completion<Outcome>, pos: nat, scope: Scope, notFound: Level): ScanState
    decreases |users|
  {
    if |users| == 0 then ScanState([], [], [], pos)
    else
      var prev := ScanUsers(users[..|users| - 1], checks, pos, scope, notFound);
      if prev.Halted() then prev else Step(prev, users[|users| - 1], checks, scope, notFound)
  }

  /** What a scan of `users` that starts at probe `pos` amounts to: users
      are scanned in list order, each once, until an exception escapes; the
      probes are user i, `attempts[i]` times, in list order; and findings are
      reported for the users found, in list order, and for nobody else. */
  predicate Scanned(users: seq<string>, checks: nat -> Completion<Outcome>, pos: nat, retryNum: int, s: ScanState)
  {
    && |s.attempts| == |s.finals| <= |users|
    && NoneHaltedBefore(s.finals)
    && (|s.finals| < |users| ==> s.Halted())
    && s.next == pos + Sum(s.attempts)
    && EachRetried(users[..|s.finals|], checks, pos, retryNum, s.attempts, s.finals)
    && Probes(s.log) == Repeat(users[..|s.finals|], s.attempts)
    && Reports(s.log) == Successful(users[..|s.finals|], s.finals)
  }

  /** Entry i is user i's `attempt_user`, whose first probe follows the
      probes of the users before it. */
  predicate EachRetried(users: seq<string>, checks: nat -> Completion<Outcome>, pos: nat, retryNum: int,
                        attempts: seq<nat>, finals: seq<Completion<Option<Outcome>>>)
    requires |users| == |attempts| == |finals|
  {
    if |users| == 0 then true
    else
      var n := |users| - 1;
      var p := pos + Sum(attempts[..n]);
      && EachRetried(users[..n], checks, pos, retryNum, attempts[..n], finals[..n])
      && attempts[n] == AttemptsFrom(checks, p, retryNum, 0)
      && finals[n] == LastResult(checks, p, attempts[n])
  }

  /** Entry i, read off directly. */
  lemma {:induction false} EachRetriedAt(users: seq<string>, checks: nat -> Completion<Outcome>, pos: nat, retryNum: int,
                                         attempts: seq<nat>, finals: seq<Completion<Option<Outcome>>>, i: nat)
    requires |users| == |attempts| == |finals|
    requires EachRetried(users, checks, pos, retryNum, attempts, finals)
    requires i < |users|
    ensures attempts[i] == Retry(users[i], checks, pos + Sum(attempts[..i]), retryNum).attempts
    ensures finals[i] == Retry(users[i], checks, pos + Sum(attempts[..i]), retryNum).result
    decreases |users|
  {
    var n := |users| - 1;
    if i < n {
      EachRetriedAt(users[..n], checks, pos, retryNum, attempts[..n], finals[..n], i);
      var p := pos + Sum(attempts[..n][..i]);
      assert attempts[..n][..i] == attempts[..i];
      assert users[..n][i] == users[i] && attempts[..n][i] == attempts[i] && finals[..n][i] == finals[i];
      assert attempts[i] == Retry(users[i], checks, p, retryNum).attempts;
    }
  }

  /** No user of the scan is probed more than `retry_num + 1` times. */
  lemma {:induction false} EachRetriedBound(users: seq<string>, checks: nat -> Completion<Outcome>, pos: nat, retryNum: int,
                                            attempts: seq<nat>, finals: seq<Completion<Option<Outcome>>>)
    requires |users| == |attempts| == |finals|
    requires EachRetried(users, checks, pos, retryNum, attempts, finals)
    ensures forall i :: 0 <= i < |attempts| ==> attempts[i] <= MaxAttempts(retryNum)
    decreases |users|
  {
    if |users| > 0 {
      var n := |users| - 1;
      EachRetriedBound(users[..n], checks, pos, retryNum, attempts[..n], finals[..n]);
      RetryPolicy(users[n], checks, pos + Sum(attempts[..n]), retryNum);
      assert forall i :: 0 <= i < n ==> attempts[i] == attempts[..n][i];
    }
  }

  /** `ScanUsers` is such a scan. */
  lemma {:induction false} ScanFacts(users: seq<string>, checks: nat -> Completion<Outcome>, pos: nat, scope: Scope, notFound: Level)
    decreases |users|
    ensures Scanned(users, checks, pos, scope.retryNum, ScanUsers(users, checks, pos, scope, notFound))
  {
    if |users| == 0 {
      assert ScanUsers(users, checks, pos, scope, notFound) == ScanState([], [], [], pos);
    } else {
      var n := |users| - 1;
      var prev := ScanUsers(users[..n], checks, pos, scope, notFound);
      ScanFacts(users[..n], checks, pos, scope, notFound);
      if prev.Halted() {
        assert ScanUsers(users, checks, pos, scope, notFound) == prev;
        ScannedHalted(users, checks, pos, scope.retryNum, prev);
      } else {
        var s := Step(prev, users[n], checks, scope, notFound);
        assert ScanUsers(users, checks, pos, scope, notFound) == s;
        ScannedStep(users, checks, pos, scope, notFound, prev, s);
      }
    }
  }

  /** A halted scan of a prefix is a scan of the whole list. */
  lemma ScannedHalted(users: seq<string>, checks: nat -> Completion<Outcome>, pos: nat, retryNum: int, prev: ScanState)
    requires |users| > 0
    requires Scanned(users[..|users| - 1], checks, pos, retryNum, prev)
    requires prev.Halted()
    ensures Scanned(users, checks, pos, retryNum, prev)
  {
    PrefixOfPrefix(users, |users| - 1, |prev.finals|);
  }

  /** One more `Step` after a scan of the front scans the whole list. */
  lemma ScannedStep(users: seq<string>, checks: nat -> Completion<Outcome>, pos: nat, scope: Scope, notFound: Level, prev: ScanState, s: ScanState)
    requires |users| > 0
    requires Scanned(users[..|users| - 1], checks, pos, scope.retryNum, prev)
    requires !prev.Halted()
    requires s == Step(prev, users[|users| - 1], checks, scope, notFound)
    ensures Scanned(users, checks, pos, scope.retryNum, s)
  {
    var n := |users| - 1;
    PrefixOfPrefix(users, n, n);
    StepCounts(prev, n, checks, pos, scope, notFound, users[n], s);
    FrontLast(users);
    StepProbes(prev, users[..n], users[n], checks, scope, notFound, s);
    StepReports(prev, users[..n], users[n], checks, scope, notFound, s);
    StepRetried(prev, users[..n], users[n], checks, pos, scope, notFound, s);
    PrefixOfPrefix(users, |users|, |users|);
  }

  lemma RepeatSnoc(users: seq<string>, counts: seq<nat>, u: string, c: nat)
    requires |users| == |counts|
    ensures Repeat(users + [u], counts + [c]) == Repeat(users, counts) + Copies(u, c)
  {
    assert (users + [u])[..|users|] == users;
    assert (counts + [c])[..|counts|] == counts;
  }

  lemma SuccessfulSnoc(users: seq<string>, finals: seq<Completion<Option<Outcome>>>, u: string, f: Completion<Option<Outcome>>)
    requires |users| == |finals|
    ensures Successful(users + [u], finals + [f])
              == Successful(users, finals) + (if f == Normal(Some(Success)) then [u] else [])
  {
    assert (users + [u])[..|users|] == users;
    assert (finals + [f])[..|finals|] == finals;
  }

  lemma SumSnoc(xs: seq<nat>, x: nat)
    ensures Sum(xs + [x]) == Sum(xs) + x
  {
    assert (xs + [x])[..|xs|] == xs;
  }

  /** Scanning one more user adds one attempt count and one final result. */
  lemma StepCounts(prev: ScanState, n: nat, checks: nat -> Completion<Outcome>, pos: nat, scope: Scope, notFound: Level, u: string, s: ScanState)
    requires |prev.attempts| == |prev.finals| == n
    requires !prev.Halted()
    requires NoneHaltedBefore(prev.finals)
    requires prev.next == pos + Sum(prev.attempts)
    requires s == Step(prev, u, checks, scope, notFound)
    ensures |s.attempts| == |s.finals| == n + 1
    ensures NoneHaltedBefore(s.finals)
    ensures s.next == pos + Sum(s.attempts)
  {
    SumSnoc(prev.attempts, s.attempts[n]);
  }

  /** Scanning one more user records that user's `attempt_user`, started
      at the probe after the last one made so far. */
  lemma StepRetried(prev: ScanState, done: seq<string>, u: string, checks: nat -> Completion<Outcome>, pos: nat,
                    scope: Scope, notFound: Level, s: ScanState)
    requires |prev.attempts| == |prev.finals| == |done|
    requires prev.next == pos + Sum(prev.attempts)
    requires EachRetried(done, checks, pos, scope.retryNum, prev.attempts, prev.finals)
    requires !prev.Halted()
    requires s == Step(prev, u, checks, scope, notFound)
    ensures EachRetried(done + [u], checks, pos, scope.retryNum, s.attempts, s.finals)
  {
    StepFields(prev, u, checks, scope, notFound);
    var a := Retry(u, checks, prev.next, scope.retryNum);
    EachRetriedSnoc(done, checks, pos, scope.retryNum, prev.attempts, prev.finals, u, a.attempts, a.result);
  }

  /** What one `Step` adds to the counts: the user's attempts and result. */
  lemma StepFields(prev: ScanState, u: string, checks: nat -> Completion<Outcome>, scope: Scope, notFound: Level)
    ensures var a := Retry(u, checks, prev.next, scope.retryNum);
            var s := Step(prev, u, checks, scope, notFound);
      && s.attempts == prev.attempts + [a.attempts]
      && s.finals == prev.finals + [a.result]
      && s.next == prev.next + a.attempts
  {
  }

  /** One more entry, for the attempts of `u` that follow the recorded ones. */
  lemma EachRetriedSnoc(users: seq<string>, checks: nat -> Completion<Outcome>, pos: nat, retryNum: int,
                        attempts: seq<nat>, finals: seq<Completion<Option<Outcome>>>,
                        u: string, x: nat, f: Completion<Option<Outcome>>)
    requires |users| == |attempts| == |finals|
    requires EachRetried(users, checks, pos, retryNum, attempts, finals)
    requires x == Retry(u, checks, pos + Sum(attempts), retryNum).attempts
    requires f == Retry(u, checks, pos + Sum(attempts), retryNum).result
    ensures EachRetried(users + [u], checks, pos, retryNum, attempts + [x], finals + [f])
  {
    var n := |users|;
    assert (users + [u])[..n] == users;
    assert (attempts + [x])[..n] == attempts;
    assert (finals + [f])[..n] == finals;
  }

  /** The result message of one user, if their attempts ended normally. */
  function Shown(scope: Scope, u: string, r: Completion<Option<Outcome>>, notFound: Level): seq<Event>
  {
    if r.Normal? then ShowResult(scope, u, r.value, notFound) else []
  }

  /** A user's result message probes nothing and reports the user exactly
      when the attempts ended in `:success`. */
  lemma ShownProjections(scope: Scope, u: string, r: Completion<Option<Outcome>>, notFound: Level)
    ensures Probes(Shown(scope, u, r, notFound)) == []
    ensures Reports(Shown(scope, u, r, notFound)) == if r == Normal(Some(Success)) then [u] else []
  {
    if r.Normal? {
      ShowResultFacts(scope, u, r.value, notFound);
    }
  }

  /** One `Step` appends the user's retry log and then their message. */
  lemma StepLog(prev: ScanState, u: string, checks: nat -> Completion<Outcome>, scope: Scope, notFound: Level)
    ensures var a := Retry(u, checks, prev.next, scope.retryNum);
      Step(prev, u, checks, scope, notFound).log == prev.log + a.log + Shown(scope, u, a.result, notFound)
  {
  }

  /** Scanning one more user extends the probes by that user's attempts. */
  lemma StepProbes(prev: ScanState, done: seq<string>, u: string, checks: nat -> Completion<Outcome>, scope: Scope, notFound: Level, s: ScanState)
    requires |prev.attempts| == |done|
    requires Probes(prev.log) == Repeat(done, prev.attempts)
    requires s == Step(prev, u, checks, scope, notFound)
    ensures Probes(s.log) == Repeat(done + [u], s.attempts)
  {
    var a := Retry(u, checks, prev.next, scope.retryNum);
    var shown := Shown(scope, u, a.result, notFound);
    StepLog(prev, u, checks, scope, notFound);
    StepFields(prev, u, checks, scope, notFound);
    RetryLogProbes(u, a.attempts);
    ShownProjections(scope, u, a.result, notFound);
    Append3(prev.log, a.log, shown);
    RepeatSnoc(done, prev.attempts, u, a.attempts);
  }

  /** Scanning one more user adds that user to the findings exactly when
      their attempts end in `:success`. */
  lemma StepReports(prev: ScanState, done: seq<string>, u: string, checks: nat -> Completion<Outcome>, scope: Scope, notFound: Level, s: ScanState)
    requires |prev.finals| == |done|
    requires Reports(prev.log) == Successful(done, prev.finals)
    requires s == Step(prev, u, checks, scope, notFound)
    ensures Reports(s.log) == Successful(done + [u], s.finals)
  {
    var a := Retry(u, checks, prev.next, scope.retryNum);
    var shown := Shown(scope, u, a.result, notFound);
    StepLog(prev, u, checks, scope, notFound);
    StepFields(prev, u, checks, scope, notFound);
    RetryLogReports(u, a.attempts);
    ShownProjections(scope, u, a.result, notFound);
    ReportsExtend(prev.log, a.log, shown, done, prev.finals, u, a.result);
  }

  /** The findings grow by `u` exactly when `u`'s attempts end in `:success`. */
  lemma ReportsExtend(log: seq<Event>, tried: seq<Event>, shown: seq<Event>, done: seq<string>,
                      finals: seq<Completion<Option<Outcome>>>, u: string, f: Completion<Option<Outcome>>)
    requires |finals| == |done|
    requires Reports(log) == Successful(done, finals)
    requires Reports(tried) == []
    requires Reports(shown) == if f == Normal(Some(Success)) then [u] else []
    ensures Reports(log + tried + shown) == Successful(done + [u], finals + [f])
  {
    Append3(log, tried, shown);
    SuccessfulSnoc(done, finals, u, f);
  }

  lemma PrefixOfPrefix(users: seq<string>, n: nat, k: nat)
    requires k <= n <= |users|
    ensures users[..n][..k] == users[..k]
    ensures users[..|users|] == users
  {
  }

  /** A non-empty sequence is its front followed by its last element. */
  lemma FrontLast(users: seq<string>)
    requires |users| > 0
    ensures users[..|users| - 1] + [users[|users| - 1]] == users
  {
  }

  /** `ScanUsers` on one more user takes one more `Step`, unless the scan
      has already halted. */
  lemma ScanUsersSnoc(users: seq<string>, i: nat, checks: nat -> Completion<Outcome>, pos: nat, scope: Scope, notFound: Level)
    requires i < |users|
    requires !ScanUsers(users[..i], checks, pos, scope, notFound).Halted()
    ensures ScanUsers(users[..i + 1], checks, pos, scope, notFound)
              == Step(ScanUsers(users[..i], checks, pos, scope, notFound), users[i], checks, scope, notFound)
  {
    assert users[..i + 1][..i] == users[..i];
  }

  /** The scan loop, over the users in list order; it stops when an
      exception escapes a user's attempts. */
  method RunScan(users: seq<string>, checks: nat -> Completion<Outcome>, pos: nat, scope: Scope, notFound: Level)
    returns (s: ScanState)
    ensures s == ScanUsers(users, checks, pos, scope, notFound)
  {
    s := ScanState([], [], [], pos);
    var i := 0;
    while i < |users|
      invariant 0 <= i <= |users|
      invariant s == ScanUsers(users[..i], checks, pos, scope, notFound)
      invariant !s.Halted()
    {
      ScanUsersSnoc(users, i, checks, pos, scope, notFound);
      s := ScanUser(s, users[i], checks, scope, notFound);
      i := i + 1;
      if s.Halted() {
        // the exception escapes `run_host`; later users are never probed
        ScanHaltedStaysHalted(users, i, checks, pos, scope, notFound);
        return;
      }
    }
    PrefixOfPrefix(users, i, i);
  }

  /** One pass of the scan loop: `attempt_user` for `user`, then
      `show_result` unless an exception escaped. */
  method ScanUser(prev: ScanState, user: string, checks: nat -> Completion<Outcome>, scope: Scope, notFound: Level)
    returns (s: ScanState)
    ensures s == Step(prev, user, checks, scope, notFound)
  {
    var result, attempts, log := AttemptUser(user, checks, prev.next, scope.retryNum);
    var shown := if result.Normal? then ShowResult(scope, user, result.value, notFound) else [];
    StepOfAttempt(prev, user, checks, scope, notFound, result, attempts, log);
    s := ScanState(prev.log + log + shown, prev.attempts + [attempts], prev.finals + [result], prev.next + attempts);
  }

  /** What `AttemptUser` returns is what `Step` records. */
  lemma StepOfAttempt(prev: ScanState, user: string, checks: nat -> Completion<Outcome>, scope: Scope, notFound: Level,
                      result: Completion<Option<Outcome>>, attempts: nat, log: seq<Event>)
    requires attempts == AttemptsFrom(checks, prev.next, scope.retryNum, 0)
    requires result == if attempts == 0 then Normal(None) else Lift(checks(prev.next + attempts - 1))
    requires log == RetryLog(user, attempts)
    ensures Step(prev, user, checks, scope, notFound)
              == ScanState(prev.log + log + (if result.Normal? then ShowResult(scope, user, result.value, notFound) else []),
                           prev.attempts + [attempts], prev.finals + [result], prev.next + attempts)
  {
  }

  /** Once an exception has ended the scan, later users change nothing. */
  lemma {:induction false} ScanHaltedStaysHalted(users: seq<string>, i: nat, checks: nat -> Completion<Outcome>, pos: nat, scope: Scope, notFound: Level)
    requires i <= |users|
    requires ScanUsers(users[..i], checks, pos, scope, notFound).Halted()
    ensures ScanUsers(users, checks, pos, scope, notFound) == ScanUsers(users[..i], checks, pos, scope, notFound)
    decreases |users| - i
  {
    if i < |users| {
      var m := |users| - 1;
      PrefixOfPrefix(users, m, i);
      ScanHaltedStaysHalted(users[..m], i, checks, pos, scope, notFound);
    } else {
      PrefixOfPrefix(users, i, i);
    }
  }

  /** What `run_host` leaves behind: its log, and the exception that escaped
      it, if any. */
  datatype HostRun = HostRun(log: seq<Event>, escaped: Option<Exc>)

  /** The scan of the user list after the messages `head`: an unreadable
      user file raises before any user is probed. */
  function ScanPhase(head: seq<Event>, users: Completion<seq<string>>, checks: nat -> Completion<Outcome>, pos: nat, scope: Scope, notFound: Level): HostRun
  {
    match users
    case Abrupt(e) => HostRun(head, Some(e))
    case Normal(us) =>
      var s := ScanUsers(us, checks, pos, scope, notFound);
      HostRun(head + s.log, if s.Halted() then Some(s.finals[|s.finals| - 1].exc) else None)
  }

  /** The scan phase as `run_host` runs it, with a loop. An unreadable user
      list ends the run before any probe; otherwise the users are probed in
      list order after the probes of `head`, exactly the users found are
      reported, and a run no exception ends has scanned every user. */
  method RunScanPhase(head: seq<Event>, users: Completion<seq<string>>, checks: nat -> Completion<Outcome>, pos: nat, scope: Scope, notFound: Level)
    returns (r: HostRun)
    ensures r == ScanPhase(head, users, checks, pos, scope, notFound)
    ensures users.Abrupt? ==> r.escaped == Some(users.exc) && Probes(r.log) == Probes(head) && Reports(r.log) == Reports(head)
    ensures users.Normal? ==>
              var s := ScanUsers(users.value, checks, pos, scope, notFound);
              && |s.attempts| == |s.finals| <= |users.value|
              && Probes(r.log) == Probes(head) + Repeat(users.value[..|s.finals|], s.attempts)
              && Reports(r.log) == Reports(head) + Successful(users.value[..|s.finals|], s.finals)
              && (r.escaped.None? ==> |s.finals| == |users.value|)
  {
    if users.Abrupt? {
      return HostRun(head, Some(users.exc));
    }
    var s := RunScan(users.value, checks, pos, scope, notFound);
    r := HostRun(head + s.log, if s.Halted() then Some(s.finals[|s.finals| - 1].exc) else None);
    ScanPhaseFacts(head, users.value, checks, pos, scope, notFound);
  }

  /** The scan phase probes the users in list order, reports exactly the
      ones found, and ends without an exception only after every user. */
  lemma ScanPhaseFacts(head: seq<Event>, us: seq<string>, checks: nat -> Completion<Outcome>, pos: nat, scope: Scope, notFound: Level)
    ensures var s := ScanUsers(us, checks, pos, scope, notFound);
            var r := ScanPhase(head, Normal(us), checks, pos, scope, notFound);
      && |s.finals| == |s.attempts| <= |us|
      && EachRetried(us[..|s.finals|], checks, pos, scope.retryNum, s.attempts, s.finals)
      && (forall i :: 0 <= i < |s.attempts| ==> s.attempts[i] <= MaxAttempts(scope.retryNum))
      && Probes(r.log) == Probes(head) + Repeat(us[..|s.finals|], s.attempts)
      && Reports(r.log) == Reports(head) + Successful(us[..|s.finals|], s.finals)
      && (r.escaped.None? ==> |s.finals| == |us| && forall i :: 0 <= i < |s.finals| ==> s.finals[i].Normal?)
      && (r.escaped.Some? ==> s.Halted() && r.escaped.value == s.finals[|s.finals| - 1].exc)
  {
    var s := ScanUsers(us, checks, pos, scope, notFound);
    ScanFacts(us, checks, pos, scope, notFound);
    EachRetriedBound(us[..|s.finals|], checks, pos, scope.retryNum, s.attempts, s.finals);
    ProbesAppend(head, s.log);
    ReportsAppend(head, s.log);
  }

  /** A user is reported by the scan phase exactly when their attempts
      ended in `:success`. */
  lemma ScanPhaseFindings(head: seq<Event>, us: seq<string>, checks: nat -> Completion<Outcome>, pos: nat, scope: Scope, notFound: Level, u: string)
    requires u !in Reports(head)
    ensures var s := ScanUsers(us, checks, pos, scope, notFound);
      u in Reports(ScanPhase(head, Normal(us), checks, pos, scope, notFound).log) <==>
        exists i :: 0 <= i < |us| && i < |s.finals| && us[i] == u && s.finals[i] == Normal(Some(Success))
  {
    var s := ScanUsers(us, checks, pos, scope, notFound);
    ScanPhaseFacts(head, us, checks, pos, scope, notFound);
    SuccessfulMembers(us[..|s.finals|], s.finals, u);
    if exists i :: 0 <= i < |us| && i < |s.finals| && us[i] == u && s.finals[i] == Normal(Some(Success)) {
      var i :| 0 <= i < |s.finals| && us[i] == u && s.finals[i] == Normal(Some(Success));
      assert us[..|s.finals|][i] == u;
    }
  }
}

=== FILE: ssh_enum.dfy ===
/** `auxiliary/scanner/ssh/ssh_enumusers`: user enumeration by timing
    against OpenSSH (CVE-2006-5229). Some servers take longer to reject a
    very long password for a user that exists, so a login attempt slower
    than the threshold marks the user as found. The module first probes a
    made-up user and refuses to scan a server that reports it as found. */
module SshEnum {
  import opened Outcomes
  import opened Events
  import opened Text
  import opened RetryControl
  import opened Scan

  /** What one `Net::SSH.start` under the SSH_TIMEOUT guard does, as far as
      the module can see: it returns or raises, after `elapsedMs`
      milliseconds measured from just before the call. */
  datatype Attempt =
    | Returned(elapsedMs: nat)
    | Raised(exc: Exc, elapsedMs: nat)

  /** The `rescue` clauses around `Net::SSH.start` in `check_user`, in
      order. The last one swallows every other SSH error, and the timing
      decides. */
  const StartRescue: seq<Clause> :=
    [ Clause([RexConnectionError, RexAddressInUse], Return(ConnectionError)),
      Clause([SshDisconnect, EOFError], Return(Success)),
      Clause([TimeoutError], Return(Success)),
      Clause([SshException], Swallow) ]

  /** The timing verdict: `:success` when the attempt took strictly longer
      than `threshold` seconds. */
  function Timed(elapsedMs: nat, threshold: int): (o: Outcome)
    ensures o == Success <==> elapsedMs > threshold * 1000
    ensures o != ConnectionError
  {
    if elapsedMs > threshold * 1000 then Success else Fail
  }

  /** `check_user`: a connection problem is `:connection_error`; a dropped
      connection or a timeout means the user exists; any other SSH error,
      and a completed login, leave the verdict to the timing. */
  function CheckUser(a: Attempt, threshold: int): (c: Completion<Outcome>)
    ensures c == Normal(ConnectionError) <==> a.Raised? && ConnectionLevel(a.exc)
    ensures a.Raised? && a.exc in {Disconnect, EndOfFile, TimeoutExpired} ==> c == Normal(Success)
    ensures (a.Returned? || (a.Raised? && a.exc in {AuthenticationFailed, OtherSshError})) ==>
              (c == Normal(Success) <==> a.elapsedMs > threshold * 1000) && c.Normal? && c.value != ConnectionError
    ensures c.Abrupt? <==> a.Raised? && a.exc in {UnreadableUserFile, OtherError}
    ensures c.Abrupt? ==> c.exc == a.exc
  {
    match a
    case Returned(ms) => Normal(Timed(ms, threshold))
    case Raised(e, ms) =>
      if ConnectionLevel(e) then Normal(ConnectionError)
      else if IsA(e, SshDisconnect) || IsA(e, EOFError) then Normal(Success)
      else if IsA(e, TimeoutError) then Normal(Success)
      else if IsA(e, SshException) then Normal(Timed(ms, threshold))  // swallowed; the timing decides
      else Abrupt(e)
  }

  /** The classification of a raised attempt is the one Ruby's ordered
      `rescue` clauses give, a swallowed exception falling through to the
      timing. */
  lemma CheckUserFollowsRescue(e: Exc, ms: nat, threshold: int)
    ensures CheckUser(Raised(e, ms), threshold) == match Rescue(e, StartRescue)
                                                   case Some(Return(o)) => Normal(o)
                                                   case Some(Swallow) => Normal(Timed(ms, threshold))
                                                   case None => Abrupt(e)
  {
    CatchesTwo(RexConnectionError, RexAddressInUse, Return(ConnectionError), e);
    CatchesTwo(SshDisconnect, EOFError, Return(Success), e);
    CatchesOne(TimeoutError, Return(Success), e);
    CatchesOne(SshException, Swallow, e);
  }

  /** A disconnect is also an SSH error, but the earlier clause takes it: the
      user counts as found however fast the server was. */
  lemma DisconnectBeforeSshException(ms: nat, threshold: int)
    ensures IsA(Disconnect, SshException)
    ensures CheckUser(Raised(Disconnect, ms), threshold) == Normal(Success)
  {
  }

  /** The threshold is strict: an attempt of exactly `threshold` seconds is
      `:fail`, one millisecond more is `:success`. */
  lemma ThresholdStrict(threshold: nat)
    ensures CheckUser(Returned(threshold * 1000), threshold) == Normal(Fail)
    ensures CheckUser(Returned(threshold * 1000 + 1), threshold) == Normal(Success)
  {
  }

  /** A slower attempt is never judged less of a find than a faster one. */
  lemma TimingMonotone(fast: nat, slow: nat, threshold: int)
    requires fast <= slow
    requires CheckUser(Returned(fast), threshold) == Normal(Success)
    ensures CheckUser(Returned(slow), threshold) == Normal(Success)
  {
  }

  /** The classified probe stream of a run: probe k is `server(k)`. */
  function Checks(server: nat -> Attempt, threshold: int): nat -> Completion<Outcome>
  {
    (k: nat) => CheckUser(server(k), threshold)
  }

  /** `check_false_positive`: does the made-up user, probed with retries
      from probe 0, come out as found? */
  function CheckFalsePositive(checks: nat -> Completion<Outcome>, retryNum: int, decoy: string): (r: Completion<bool>)
    ensures var n := AttemptsFrom(checks, 0, retryNum, 0);
      && (r == Normal(true) <==> n > 0 && checks(n - 1) == Normal(Success))
      && (r.Abrupt? <==> n > 0 && checks(n - 1).Abrupt?)
    ensures retryNum < 0 ==> r == Normal(false)
  {
    AttemptsFromStops(checks, 0, retryNum, 0);
    match Retry(decoy, checks, 0, retryNum).result
    case Abrupt(e) => Abrupt(e)
    case Normal(ret) => Normal(ret == Some(Success))
  }

  /** `user_list`: the user file split on white space, nothing more; an
      unreadable file raises ArgumentError. The names are the file's maximal
      runs of non-space characters, in file order. */
  function UserList(file: Option<string>): (r: Completion<seq<string>>)
    ensures r.Normal? <==> file.Some?
    ensures r.Abrupt? ==> r.exc == UnreadableUserFile
    ensures r.Normal? ==> forall i :: 0 <= i < |r.value| ==> IsToken(r.value[i])
    ensures r.Normal? ==> Concat(r.value) == NonSpace(file.value)
    ensures r.Normal? ==> MaximalRuns(file.value, r.value)
  {
    match file
    case None => Abrupt(UnreadableUserFile)
    case Some(text) =>
      SplitTokens(text);
      SplitKeepsEveryOtherChar(text);
      SplitRuns(text);
      Normal(Split(text))
  }

  /** Round trip: any user names written one per line load back as the
      same list, duplicates and case kept. */
  lemma UserListRoundTrip(users: seq<string>)
    requires forall i :: 0 <= i < |users| ==> IsToken(users[i])
    ensures UserList(Some(Join(users, "\n"))) == Normal(users)
  {
    SplitJoin(users, '\n');
  }

  /** `run_host`: probe the made-up user `decoy` with retries from probe 0;
      a server that reports it found is abandoned, any other goes on to the
      scan, whose probes follow the decoy's. */
  function RunHost(scope: Scope, server: nat -> Attempt, threshold: int, decoy: string, file: Option<string>): HostRun
  {
    var checks := Checks(server, threshold);
    var gate := Retry(decoy, checks, 0, scope.retryNum);
    var start := [Print(Status, CheckingFalsePositives)] + gate.log;
    match gate.result
    case Abrupt(e) => HostRun(start, Some(e))
    case Normal(ret) =>
      if ret == Some(Success) then HostRun(start + [Print(Error, FalsePositive)], None)
      else ScanPhase(start + [Print(Status, StartingScan)], UserList(file), checks, gate.attempts, scope, Debug)
  }

  /** What `run_host` promises about its run `r`. Unless the check is
      passed only the decoy is probed and nothing is reported, and the run
      ends in an exception exactly when the check raised one; after a passed
      check an unreadable file raises before any user probe, and otherwise
      the users are probed in list order right after the decoy, exactly
      those found are reported, and a run no exception ends has scanned
      every user. */
  ghost predicate RunPromise(scope: Scope, server: nat -> Attempt, threshold: int, decoy: string, file: Option<string>, r: HostRun)
  {
    var gate := Retry(decoy, Checks(server, threshold), 0, scope.retryNum);
    var passed := CheckFalsePositive(Checks(server, threshold), scope.retryNum, decoy) == Normal(false);
    && (!passed ==>
          && Probes(r.log) == Copies(decoy, gate.attempts)
          && Reports(r.log) == []
          && (r.escaped.Some? <==> CheckFalsePositive(Checks(server, threshold), scope.retryNum, decoy).Abrupt?))
    && (passed && file.None? ==>
          && r.escaped == Some(UnreadableUserFile)
          && Probes(r.log) == Copies(decoy, gate.attempts)
          && Reports(r.log) == [])
    && (file.Some? ==>
          var users := Split(file.value);
          var s := ScanUsers(users, Checks(server, threshold), gate.attempts, scope, Debug);
          && (passed ==>
                && |s.attempts| == |s.finals| <= |users|
                && Probes(r.log) == Copies(decoy, gate.attempts) + Repeat(users[..|s.finals|], s.attempts)
                && Reports(r.log) == Successful(users[..|s.finals|], s.finals)
                && (r.escaped.None? ==> |s.finals| == |users|))
          && forall u :: u in Reports(r.log) <==>
               && passed
               && exists i :: 0 <= i < |users| && i < |s.finals| && users[i] == u && s.finals[i] == Normal(Some(Success)))
  }

  /** `run_host` as the Ruby module runs it: the retried decoy probe, then the
      scan loop from the next probe on; the run keeps `RunPromise`. */
  method ScanHost(scope: Scope, server: nat -> Attempt, threshold: int, decoy: string, file: Option<string>) returns (r: HostRun)
    ensures r == RunHost(scope, server, threshold, decoy, file)
    ensures RunPromise(scope, server, threshold, decoy, file, r)
  {
    var checks := Checks(server, threshold);
    var result, attempts, log := AttemptUser(decoy, checks, 0, scope.retryNum);
    assert Retry(decoy, checks, 0, scope.retryNum) == Attempted(result, attempts, log);
    var start := [Print(Status, CheckingFalsePositives)] + log;
    if result.Abrupt? {
      r := HostRun(start, Some(result.exc));
    } else if result.value == Some(Success) {
      r := HostRun(start + [Print(Error, FalsePositive)], None);
    } else {
      r := RunScanPhase(start + [Print(Status, StartingScan)], UserList(file), checks, attempts, scope, Debug);
    }
    RunHostKeepsPromise(scope, server, threshold, decoy, file, r);
  }

  /** Every run of `run_host` keeps `RunPromise`. */
  lemma RunHostKeepsPromise(scope: Scope, server: nat -> Attempt, threshold: int, decoy: string, file: Option<string>, r: HostRun)
    requires r == RunHost(scope, server, threshold, decoy, file)
    ensures RunPromise(scope, server, threshold, decoy, file, r)
  {
    RunHostFacts(scope, server, threshold, decoy, file);
    RunHostFindings(scope, server, threshold, decoy, file);
  }

  /** The run-level facts of `ScanHost`, by the gate's outcome. */
  lemma RunHostFacts(scope: Scope, server: nat -> Attempt, threshold: int, decoy: string, file: Option<string>)
    ensures var r := RunHost(scope, server, threshold, decoy, file);
      && (CheckFalsePositive(Checks(server, threshold), scope.retryNum, decoy) != Normal(false) ==>
            && Probes(r.log) == Copies(decoy, Retry(decoy, Checks(server, threshold), 0, scope.retryNum).attempts)
            && Reports(r.log) == []
            && (r.escaped.Some? <==> CheckFalsePositive(Checks(server, threshold), scope.retryNum, decoy).Abrupt?))
      && (CheckFalsePositive(Checks(server, threshold), scope.retryNum, decoy) == Normal(false) && file.None? ==>
            && r.escaped == Some(UnreadableUserFile)
            && Probes(r.log) == Copies(decoy, Retry(decoy, Checks(server, threshold), 0, scope.retryNum).attempts)
            && Reports(r.log) == [])
      && (CheckFalsePositive(Checks(server, threshold), scope.retryNum, decoy) == Normal(false) && file.Some? ==>
            var users := Split(file.value);
            var s := ScanUsers(users, Checks(server, threshold), Retry(decoy, Checks(server, threshold), 0, scope.retryNum).attempts, scope, Debug);
            && |s.attempts| == |s.finals| <= |users|
            && Probes(r.log) == Copies(decoy, Retry(decoy, Checks(server, threshold), 0, scope.retryNum).attempts) + Repeat(users[..|s.finals|], s.attempts)
            && Reports(r.log) == Successful(users[..|s.finals|], s.finals)
            && (r.escaped.None? ==> |s.finals| == |users|))
  {
    if CheckFalsePositive(Checks(server, threshold), scope.retryNum, decoy) != Normal(false) {
      NoScanUnlessPassed(scope, server, threshold, decoy, file);
    } else if file.None? {
      UnreadableFileEndsRun(scope, server, threshold, decoy);
    } else {
      ScanWhenNoFalsePositive(scope, server, threshold, decoy, file.value);
    }
  }

  /** The users `ScanHost` reports are exactly the ones found. */
  lemma RunHostFindings(scope: Scope, server: nat -> Attempt, threshold: int, decoy: string, file: Option<string>)
    ensures file.Some? ==>
              var users := Split(file.value);
              var s := ScanUsers(users, Checks(server, threshold), Retry(decoy, Checks(server, threshold), 0, scope.retryNum).attempts, scope, Debug);
              forall u :: u in Reports(RunHost(scope, server, threshold, decoy, file).log) <==>
                && CheckFalsePositive(Checks(server, threshold), scope.retryNum, decoy) == Normal(false)
                && exists i :: 0 <= i < |users| && i < |s.finals| && users[i] == u && s.finals[i] == Normal(Some(Success))
  {
    if file.Some? {
      var text := file.value;
      assert file == Some(text);
      forall u
        ensures var users := Split(text);
                var s := ScanUsers(users, Checks(server, threshold), Retry(decoy, Checks(server, threshold), 0, scope.retryNum).attempts, scope, Debug);
          u in Reports(RunHost(scope, server, threshold, decoy, Some(text)).log) <==>
            && CheckFalsePositive(Checks(server, threshold), scope.retryNum, decoy) == Normal(false)
            && exists i :: 0 <= i < |users| && i < |s.finals| && users[i] == u && s.finals[i] == Normal(Some(Success))
      {
        ReportedIffFound(scope, server, threshold, decoy, text, u);
      }
    }
  }

  /** The messages before the first user is probed: only the decoy's
      probes, and no finding, not even for the decoy. */
  lemma GateLog(scope: Scope, server: nat -> Attempt, threshold: int, decoy: string, tail: seq<Event>)
    requires Probes(tail) == [] && Reports(tail) == []
    ensures var gate := Retry(decoy, Checks(server, threshold), 0, scope.retryNum);
            var log := [Print(Status, CheckingFalsePositives)] + gate.log + tail;
      Probes(log) == Copies(decoy, gate.attempts) && Reports(log) == []
  {
    var gate := Retry(decoy, Checks(server, threshold), 0, scope.retryNum);
    RetryPolicy(decoy, Checks(server, threshold), 0, scope.retryNum);
    Append3([Print(Status, CheckingFalsePositives)], gate.log, tail);
  }

  /** A server that reports the made-up user as found gets no user probe
      and no finding. */
  lemma FalsePositiveAborts(scope: Scope, server: nat -> Attempt, threshold: int, decoy: string, file: Option<string>)
    requires CheckFalsePositive(Checks(server, threshold), scope.retryNum, decoy) == Normal(true)
    ensures var r := RunHost(scope, server, threshold, decoy, file);
            var gate := Retry(decoy, Checks(server, threshold), 0, scope.retryNum);
      && r.escaped == None
      && Probes(r.log) == Copies(decoy, gate.attempts)
      && Reports(r.log) == []
  {
    GateLog(scope, server, threshold, decoy, [Print(Error, FalsePositive)]);
  }

  /** Unless the check is passed, only the decoy is probed and nothing is
      reported; the run ends in an exception exactly when the check raised
      one. */
  lemma NoScanUnlessPassed(scope: Scope, server: nat -> Attempt, threshold: int, decoy: string, file: Option<string>)
    requires CheckFalsePositive(Checks(server, threshold), scope.retryNum, decoy) != Normal(false)
    ensures var r := RunHost(scope, server, threshold, decoy, file);
            var gate := Retry(decoy, Checks(server, threshold), 0, scope.retryNum);
      && Probes(r.log) == Copies(decoy, gate.attempts)
      && Reports(r.log) == []
      && (r.escaped.Some? <==> CheckFalsePositive(Checks(server, threshold), scope.retryNum, decoy).Abrupt?)
  {
    var gate := Retry(decoy, Checks(server, threshold), 0, scope.retryNum);
    if gate.result.Abrupt? {
      GateLog(scope, server, threshold, decoy, []);
      assert [Print(Status, CheckingFalsePositives)] + gate.log + [] == [Print(Status, CheckingFalsePositives)] + gate.log;
    } else {
      FalsePositiveAborts(scope, server, threshold, decoy, file);
    }
  }

  /** The run of a server that passes the check is the scan phase, from the
      probe after the decoy's last. */
  lemma PassedRun(scope: Scope, server: nat -> Attempt, threshold: int, decoy: string, file: Option<string>)
    requires CheckFalsePositive(Checks(server, threshold), scope.retryNum, decoy) == Normal(false)
    ensures var gate := Retry(decoy, Checks(server, threshold), 0, scope.retryNum);
            var head := [Print(Status, CheckingFalsePositives)] + gate.log + [Print(Status, StartingScan)];
      && RunHost(scope, server, threshold, decoy, file)
           == ScanPhase(head, UserList(file), Checks(server, threshold), gate.attempts, scope, Debug)
      && Probes(head) == Copies(decoy, gate.attempts) && Reports(head) == []
  {
    GateLog(scope, server, threshold, decoy, [Print(Status, StartingScan)]);
  }

  /** After a passed check, the users of the file are probed in order, each
      with its retries, right after the decoy's probes; exactly the users
      found are reported; and a run no exception ends has scanned every
      user. */
  lemma ScanWhenNoFalsePositive(scope: Scope, server: nat -> Attempt, threshold: int, decoy: string, text: string)
    requires CheckFalsePositive(Checks(server, threshold), scope.retryNum, decoy) == Normal(false)
    ensures var gate := Retry(decoy, Checks(server, threshold), 0, scope.retryNum);
            var users := Split(text);
            var s := ScanUsers(users, Checks(server, threshold), gate.attempts, scope, Debug);
            var r := RunHost(scope, server, threshold, decoy, Some(text));
      && |s.attempts| == |s.finals| <= |users|
      && Probes(r.log) == Copies(decoy, gate.attempts) + Repeat(users[..|s.finals|], s.attempts)
      && Reports(r.log) == Successful(users[..|s.finals|], s.finals)
      && (r.escaped.None? ==> |s.finals| == |users|)
  {
    var gate := Retry(decoy, Checks(server, threshold), 0, scope.retryNum);
    PassedRun(scope, server, threshold, decoy, Some(text));
    var head := [Print(Status, CheckingFalsePositives)] + gate.log + [Print(Status, StartingScan)];
    assert UserList(Some(text)) == Normal(Split(text));
    ScanPhaseFacts(head, Split(text), Checks(server, threshold), gate.attempts, scope, Debug);
  }

  /** An unreadable user file ends the run of a server that passed the
      check before any user is probed. */
  lemma UnreadableFileEndsRun(scope: Scope, server: nat -> Attempt, threshold: int, decoy: string)
    requires CheckFalsePositive(Checks(server, threshold), scope.retryNum, decoy) == Normal(false)
    ensures var r := RunHost(scope, server, threshold, decoy, None);
      r.escaped == Some(UnreadableUserFile) && Reports(r.log) == []
      && Probes(r.log) == Copies(decoy, Retry(decoy, Checks(server, threshold), 0, scope.retryNum).attempts)
  {
    PassedRun(scope, server, threshold, decoy, None);
  }

  /** A user is reported exactly when the server passed the false-positive
      check and one of the user's entries in the file ended in `:success`. */
  lemma ReportedIffFound(scope: Scope, server: nat -> Attempt, threshold: int, decoy: string, text: string, u: string)
    ensures var gate := Retry(decoy, Checks(server, threshold), 0, scope.retryNum);
            var users := Split(text);
            var s := ScanUsers(users, Checks(server, threshold), gate.attempts, scope, Debug);
      u in Reports(RunHost(scope, server, threshold, decoy, Some(text)).log) <==>
        && CheckFalsePositive(Checks(server, threshold), scope.retryNum, decoy) == Normal(false)
        && exists i :: 0 <= i < |users| && i < |s.finals| && users[i] == u && s.finals[i] == Normal(Some(Success))
  {
    var checks := Checks(server, threshold);
    var gate := Retry(decoy, checks, 0, scope.retryNum);
    var fp := CheckFalsePositive(checks, scope.retryNum, decoy);
    if fp == Normal(false) {
      PassedRun(scope, server, threshold, decoy, Some(text));
      var head := [Print(Status, CheckingFalsePositives)] + gate.log + [Print(Status, StartingScan)];
      assert UserList(Some(text)) == Normal(Split(text));
      ScanPhaseFindings(head, Split(text), checks, gate.attempts, scope, Debug, u);
      assert RunHost(scope, server, threshold, decoy, Some(text)) == ScanPhase(head, Normal(Split(text)), checks, gate.attempts, scope, Debug);
      var s := ScanUsers(Split(text), checks, gate.attempts, scope, Debug);
      assert u in Reports(ScanPhase(head, Normal(Split(text)), checks, gate.attempts, scope, Debug).log) <==>
        exists i :: 0 <= i < |Split(text)| && i < |s.finals| && Split(text)[i] == u && s.finals[i] == Normal(Some(Success));
    } else {
      NoScanUnlessPassed(scope, server, threshold, decoy, Some(text));
    }
  }
}

=== FILE: text.dfy ===
/** The Ruby string and array operations the user-list loaders rely on,
    restricted to ASCII: `String#split` with no argument, `String#downcase!`,
    `Array#uniq!` and `Array#join`. */
module Text {

  /** The characters `split` with no argument separates on: space and the
      control characters tab, line feed, vertical tab, form feed and carriage
      return. */
  predicate IsSpace(c: char) {
    c == ' ' || ('\t' <= c <= '\r')
  }

  /** A field `split` can produce: non-empty and free of white space. */
  predicate IsToken(t: string) {
    |t| > 0 && forall j :: 0 <= j < |t| ==> !IsSpace(t[j])
  }

  /** The length of the run of non-space characters that starts `s`. */
  function TokenLength(s: string): (n: nat)
    ensures n <= |s|
    ensures forall j :: 0 <= j < n ==> !IsSpace(s[j])
    ensures n < |s| ==> IsSpace(s[n])
  {
    if |s| == 0 || IsSpace(s[0]) then 0 else 1 + TokenLength(s[1..])
  }

  /** `s.split`: the maximal runs of non-space characters, in order; leading,
      trailing and repeated white space yields no empty fields. */
  function Split(s: string): (r: seq<string>)
    decreases |s|
  {
    if |s| == 0 then []
    else if IsSpace(s[0]) then Split(s[1..])
    else
      var n := TokenLength(s);
      [s[..n]] + Split(s[n..])
  }

  /** `parts.join(sep)` */
  function Join(parts: seq<string>, sep: string): string
  {
    if |parts| == 0 then ""
    else if |parts| == 1 then parts[0]
    else parts[0] + sep + Join(parts[1..], sep)
  }

  /** `field` is a maximal run of non-space characters of `s` at position
      `p`: a token equal to the slice of `s` there, preceded by white space
      or the start of `s`, and followed by white space or the end of `s`. */
  predicate RunAt(s: string, p: nat, field: string)
  {
    && IsToken(field)
    && p + |field| <= |s|
    && s[p..p + |field|] == field
    && (p == 0 || IsSpace(s[p - 1]))
    && (p + |field| == |s| || IsSpace(s[p + |field|]))
  }

  /** `fields` are maximal runs of non-space characters of `s`, at the
      increasing positions `at`. */
  predicate RunsAt(s: string, fields: seq<string>, at: seq<nat>)
  {
    && |at| == |fields|
    && (forall i :: 0 <= i < |at| ==> RunAt(s, at[i], fields[i]))
    && (forall i, j :: 0 <= i < j < |at| ==> at[i] < at[j])
  }

  /** A run of non-space characters of `s` starts at `p`. */
  predicate RunStart(s: string, p: nat)
  {
    p < |s| && !IsSpace(s[p]) && (p == 0 || IsSpace(s[p - 1]))
  }

  /** `at` misses no start of a run of non-space characters of `s`. */
  predicate CoversRuns(s: string, at: seq<nat>)
  {
    forall p: nat :: p < |s| && RunStart(s, p) ==> p in at
  }

  /** `fields` are all the maximal runs of non-space characters of `s`, in
      the order in which they occur in `s`: each field is one, and no run is
      left out. */
  ghost predicate MaximalRuns(s: string, fields: seq<string>)
  {
    exists at :: RunsAt(s, fields, at) && CoversRuns(s, at)
  }

  /** Every position moved on by `d`. */
  function Shift(at: seq<nat>, d: nat): (r: seq<nat>)
    ensures |r| == |at|
    ensures forall i :: 0 <= i < |at| ==> r[i] == at[i] + d
  {
    seq(|at|, i requires 0 <= i < |at| => at[i] + d)
  }

  /** Where the fields of `s.split` start. */
  function Positions(s: string): seq<nat>
    decreases |s|
  {
    if |s| == 0 then []
    else if IsSpace(s[0]) then Shift(Positions(s[1..]), 1)
    else [0] + Shift(Positions(s[TokenLength(s)..]), TokenLength(s))
  }

  /** A maximal run of a suffix that starts at a field boundary is one of
      the whole string. */
  lemma RunAtShift(s: string, d: nat, p: nat, f: string)
    requires d <= |s|
    requires d == 0 || d == |s| || IsSpace(s[d - 1]) || IsSpace(s[d])
    requires RunAt(s[d..], p, f)
    ensures RunAt(s, p + d, f)
  {
    forall j | 0 <= j < |f|
      ensures s[p + d..p + d + |f|][j] == f[j]
    {
      assert f[j] == s[d..][p..p + |f|][j] == s[d + p + j];
    }
    if p == 0 && d > 0 {
      assert f[0] == s[d];
    }
    if p > 0 {
      assert s[d..][p - 1] == s[p + d - 1];
    }
    if p + |f| < |s[d..]| {
      assert s[d..][p + |f|] == s[p + d + |f|];
    }
  }

  lemma RunsShift(s: string, d: nat, fields: seq<string>, at: seq<nat>)
    requires d <= |s|
    requires d == 0 || d == |s| || IsSpace(s[d - 1]) || IsSpace(s[d])
    requires RunsAt(s[d..], fields, at)
    ensures RunsAt(s, fields, Shift(at, d))
  {
    forall i | 0 <= i < |at|
      ensures RunAt(s, Shift(at, d)[i], fields[i])
    {
      RunAtShift(s, d, at[i], fields[i]);
    }
  }

  /** A maximal run at the start, ahead of maximal runs that start after
      its end. */
  lemma RunsCons(s: string, f: string, rest: seq<string>, at: seq<nat>)
    requires RunAt(s, 0, f)
    requires RunsAt(s, rest, at)
    requires forall i :: 0 <= i < |at| ==> at[i] >= |f|
    ensures RunsAt(s, [f] + rest, [0] + at)
  {
    var fields := [f] + rest;
    var pos := [0] + at;
    forall i | 0 <= i < |pos|
      ensures RunAt(s, pos[i], fields[i])
    {
      if i > 0 {
        assert fields[i] == rest[i - 1] && pos[i] == at[i - 1];
      }
    }
    forall i, j | 0 <= i < j < |pos|
      ensures pos[i] < pos[j]
    {
      assert pos[j] == at[j - 1];
      if i > 0 {
        assert pos[i] == at[i - 1];
      }
    }
  }

  /** The fields of `split` are maximal runs, at `Positions`, and every
      run of `s` starts at one of `Positions`. */
  lemma {:induction false} SplitRunsAt(s: string)
    ensures RunsAt(s, Split(s), Positions(s))
    ensures CoversRuns(s, Positions(s))
    decreases |s|
  {
    if |s| == 0 {
    } else if IsSpace(s[0]) {
      SplitRunsAt(s[1..]);
      RunsShift(s, 1, Split(s[1..]), Positions(s[1..]));
      CoversShift(s, 1, Positions(s[1..]));
    } else {
      var n := TokenLength(s);
      assert n >= 1;
      assert RunAt(s, 0, s[..n]);
      SplitRunsAt(s[n..]);
      RunsShift(s, n, Split(s[n..]), Positions(s[n..]));
      RunsCons(s, s[..n], Split(s[n..]), Shift(Positions(s[n..]), n));
      CoversShift(s, n, Positions(s[n..]));
    }
  }

  /** Past one leading space, or past the leading run `s[..d]`, the run
      starts that `at` covers in `s[d..]` cover, moved on by `d`, every run
      start of `s` after 0. */
  lemma CoversShift(s: string, d: nat, at: seq<nat>)
    requires 0 < d <= |s|
    requires (IsSpace(s[0]) && d == 1) || forall j :: 0 <= j < d ==> !IsSpace(s[j])
    requires CoversRuns(s[d..], at)
    ensures IsSpace(s[0]) ==> CoversRuns(s, Shift(at, d))
    ensures !IsSpace(s[0]) ==> CoversRuns(s, [0] + Shift(at, d))
  {
    forall p: nat | RunStart(s, p) && p > 0
      ensures p in Shift(at, d)
    {
      assert p >= d by {
        if !IsSpace(s[0]) {
          assert IsSpace(s[p - 1]);
        }
      }
      assert RunStart(s[d..], p - d) by {
        assert s[d..][p - d] == s[p];
        if p > d {
          assert s[d..][p - d - 1] == s[p - 1];
        }
      }
      var i :| 0 <= i < |at| && at[i] == p - d;
      assert Shift(at, d)[i] == p;
    }
  }

  /** `split` cuts exactly at white space: its fields are the maximal runs of
      non-space characters, in order, and no run is left out. */
  lemma SplitRuns(s: string)
    ensures MaximalRuns(s, Split(s))
  {
    SplitRunsAt(s);
  }

  /** Every field `split` produces is a token. */
  lemma {:induction false} SplitTokens(s: string)
    ensures forall i :: 0 <= i < |Split(s)| ==> IsToken(Split(s)[i])
    decreases |s|
  {
    if |s| == 0 {
    } else if IsSpace(s[0]) {
      SplitTokens(s[1..]);
    } else {
      var n := TokenLength(s);
      SplitTokens(s[n..]);
    }
  }

  /** The characters of `s` that are not white space, in order. */
  function NonSpace(s: string): string
  {
    if |s| == 0 then []
    else (if IsSpace(s[0]) then [] else [s[0]]) + NonSpace(s[1..])
  }

  /** The concatenation of a list of strings. */
  function Concat(ts: seq<string>): string
  {
    if |ts| == 0 then [] else ts[0] + Concat(ts[1..])
  }

  lemma {:induction false} NonSpaceAppend(a: string, b: string)
    ensures NonSpace(a + b) == NonSpace(a) + NonSpace(b)
    decreases |a|
  {
    if |a| == 0 {
      assert a + b == b;
    } else {
      assert (a + b)[1..] == a[1..] + b;
      NonSpaceAppend(a[1..], b);
    }
  }

  lemma {:induction false} NonSpaceOfToken(t: string)
    requires forall j :: 0 <= j < |t| ==> !IsSpace(t[j])
    ensures NonSpace(t) == t
    decreases |t|
  {
    if |t| > 0 {
      NonSpaceOfToken(t[1..]);
    }
  }

  /** `split` drops exactly the white space: joined back without separators,
      its fields spell the non-space characters of the input. */
  lemma {:induction false} SplitKeepsEveryOtherChar(s: string)
    ensures Concat(Split(s)) == NonSpace(s)
    decreases |s|
  {
    if |s| == 0 {
    } else if IsSpace(s[0]) {
      SplitKeepsEveryOtherChar(s[1..]);
    } else {
      var n := TokenLength(s);
      SplitKeepsEveryOtherChar(s[n..]);
      assert s == s[..n] + s[n..];
      NonSpaceAppend(s[..n], s[n..]);
      NonSpaceOfToken(s[..n]);
      assert Split(s) == [s[..n]] + Split(s[n..]);
      assert ([s[..n]] + Split(s[n..]))[1..] == Split(s[n..]);
    }
  }

  lemma {:induction false} TokenLengthOfToken(t: string, rest: string)
    requires IsToken(t)
    requires |rest| == 0 || IsSpace(rest[0])
    ensures TokenLength(t + rest) == |t|
    decreases |t|
  {
    if |t| > 1 {
      assert (t + rest)[1..] == t[1..] + rest;
      TokenLengthOfToken(t[1..], rest);
    } else {
      assert (t + rest)[1..] == rest;
    }
  }

  /** Round trip: tokens joined with one white-space character (a space, a
      line feed, ...) split back into the same tokens. */
  lemma {:induction false} SplitJoin(ts: seq<string>, sep: char)
    requires IsSpace(sep)
    requires forall i :: 0 <= i < |ts| ==> IsToken(ts[i])
    ensures Split(Join(ts, [sep])) == ts
    decreases |ts|
  {
    if |ts| == 1 {
      var t := ts[0];
      TokenLengthOfToken(t, "");
      assert t + "" == t;
      assert t[..|t|] == t;
      assert t[|t|..] == "";
    } else if |ts| > 1 {
      var t := ts[0];
      var rest := Join(ts[1..], [sep]);
      var s := t + [sep] + rest;
      assert Join(ts, [sep]) == s;
      assert s == t + ([sep] + rest);
      TokenLengthOfToken(t, [sep] + rest);
      assert s[..|t|] == t;
      assert s[|t|..] == [sep] + rest;
      assert ([sep] + rest)[1..] == rest;
      SplitJoin(ts[1..], sep);
      assert Split([sep] + rest) == Split(rest);
      assert [t] + ts[1..] == ts;
    }
  }

  predicate IsUpper(c: char) { 'A' <= c <= 'Z' }

  function LowerChar(c: char): char
  {
    if IsUpper(c) then (c as int + 32) as char else c
  }

  /** `s.downcase!`, for ASCII: upper-case letters become lower-case,
      every other character is kept. */
  function Downcase(s: string): (r: string)
    ensures |r| == |s|
    ensures forall i :: 0 <= i < |r| ==> !IsUpper(r[i])
    ensures forall i :: 0 <= i < |s| && !IsUpper(s[i]) ==> r[i] == s[i]
    ensures forall i :: 0 <= i < |s| && IsUpper(s[i]) ==> r[i] as int == s[i] as int + 32
  {
    if |s| == 0 then [] else [LowerChar(s[0])] + Downcase(s[1..])
  }

  /** Downcasing twice is downcasing once. */
  lemma DowncaseIdempotent(s: string)
    ensures Downcase(Downcase(s)) == Downcase(s)
  {
  }

  /** A string without upper-case letters is its own downcase. */
  lemma DowncaseLower(s: string)
    requires forall i :: 0 <= i < |s| ==> !IsUpper(s[i])
    ensures Downcase(s) == s
  {
  }

  /** Downcasing a token gives a token. */
  lemma DowncaseToken(t: string)
    requires IsToken(t)
    ensures IsToken(Downcase(t))
  {
    var r := Downcase(t);
    forall j | 0 <= j < |r|
      ensures !IsSpace(r[j])
    {
      if IsUpper(t[j]) {
        assert 'a' as int <= r[j] as int <= 'z' as int;
      }
    }
  }

  /** Every name of a list downcased in place. */
  function DowncaseAll(ts: seq<string>): (r: seq<string>)
    ensures |r| == |ts|
    ensures forall i :: 0 <= i < |ts| ==> r[i] == Downcase(ts[i])
  {
    seq(|ts|, i requires 0 <= i < |ts| => Downcase(ts[i]))
  }

  /** The downcased list holds exactly the downcased names. */
  lemma DowncaseAllMembers(ts: seq<string>)
    ensures forall u :: u in DowncaseAll(ts) <==> exists t :: t in ts && Downcase(t) == u
  {
    var r := DowncaseAll(ts);
    forall u
      ensures u in r <==> exists t :: t in ts && Downcase(t) == u
    {
      if exists t :: t in ts && Downcase(t) == u {
        var t :| t in ts && Downcase(t) == u;
        var i :| 0 <= i < |ts| && ts[i] == t;
        assert r[i] == u;
      }
    }
  }

  predicate Distinct<T(==)>(xs: seq<T>) {
    forall i, j :: 0 <= i < j < |xs| ==> xs[i] != xs[j]
  }

  /** Position of the first occurrence of `x` in `xs`. */
  function FirstIndex(xs: seq<string>, x: string): (k: nat)
    requires x in xs
    ensures k < |xs| && xs[k] == x
    ensures forall j :: 0 <= j < k ==> xs[j] != x
  {
    if xs[0] == x then 0 else 1 + FirstIndex(xs[1..], x)
  }

  /** The first occurrence is the only position with no earlier copy. */
  lemma FirstIndexUnique(xs: seq<string>, x: string, k: nat)
    requires k < |xs| && xs[k] == x
    requires forall j :: 0 <= j < k ==> xs[j] != x
    ensures FirstIndex(xs, x) == k
  {
  }

  /** `xs.uniq`: keeps the first occurrence of every element. The result
      holds no element twice, holds exactly the elements of `xs`, and lists
      them in the order in which they first occur in `xs`. */
  function Uniq(xs: seq<string>): (r: seq<string>)
    decreases |xs|
    ensures Distinct(r)
    ensures forall x :: x in r <==> x in xs
    ensures forall i, j :: 0 <= i < j < |r| ==> FirstIndex(xs, r[i]) < FirstIndex(xs, r[j])
  {
    if |xs| == 0 then []
    else
      var prefix := xs[..|xs| - 1];
      var p := Uniq(prefix);
      var x := xs[|xs| - 1];
      UniqStep(xs, p);
      if x in p then p else p + [x]
  }

  /** Whatever occurs in a prefix of `xs` first occurs in `xs` at the same
      place. */
  lemma FirstIndexPrefix(xs: seq<string>, n: nat, x: string)
    requires n <= |xs| && x in xs[..n]
    ensures x in xs && FirstIndex(xs, x) == FirstIndex(xs[..n], x)
  {
    var k := FirstIndex(xs[..n], x);
    assert xs[k] == x;
    FirstIndexUnique(xs, x, k);
  }

  /** One step of `Uniq`: the first occurrences in `xs` of the elements kept
      from its prefix lie in the prefix, in the same order; a last element
      that is new occurs first at the end. */
  lemma UniqStep(xs: seq<string>, p: seq<string>)
    requires |xs| > 0
    requires forall i :: 0 <= i < |p| ==> p[i] in xs[..|xs| - 1]
    requires xs[|xs| - 1] in xs[..|xs| - 1] ==> xs[|xs| - 1] in p
    requires forall i, j :: 0 <= i < j < |p| ==> FirstIndex(xs[..|xs| - 1], p[i]) < FirstIndex(xs[..|xs| - 1], p[j])
    ensures forall i :: 0 <= i < |p| ==> p[i] in xs
    ensures forall i :: 0 <= i < |p| ==> FirstIndex(xs, p[i]) < |xs| - 1
    ensures forall i, j :: 0 <= i < j < |p| ==> FirstIndex(xs, p[i]) < FirstIndex(xs, p[j])
    ensures xs[|xs| - 1] !in p ==> FirstIndex(xs, xs[|xs| - 1]) == |xs| - 1
  {
    var n := |xs| - 1;
    forall i | 0 <= i < |p|
      ensures p[i] in xs && FirstIndex(xs, p[i]) == FirstIndex(xs[..n], p[i])
    {
      FirstIndexPrefix(xs, n, p[i]);
    }
    var x := xs[n];
    if x !in p {
      FirstIndexUnique(xs, x, n);
    }
  }

  /** Without duplicates, `uniq` changes nothing. */
  lemma {:induction false} UniqOfDistinct(xs: seq<string>)
    requires Distinct(xs)
    ensures Uniq(xs) == xs
    decreases |xs|
  {
    if |xs| > 0 {
      var prefix := xs[..|xs| - 1];
      UniqOfDistinct(prefix);
      assert xs[|xs| - 1] !in prefix;
      assert prefix + [xs[|xs| - 1]] == xs;
    }
  }

  /** The joined string is empty exactly when there is nothing to join or a
      single empty part, whatever the (non-empty) separator. */
  lemma JoinEmpty(parts: seq<string>, sep: string)
    requires |sep| > 0
    ensures Join(parts, sep) == "" <==> parts == [] || parts == [""]
  {
    if |parts| >= 2 {
      assert Join(parts, sep) == parts[0] + sep + Join(parts[1..], sep);
      assert |Join(parts, sep)| >= |sep|;
    }
  }
}
